=== FILE: README.md ===
# Agent requirements document: a Dafny model

The accounting-agent discovery assistant collects an agent requirements
document over a chat session. Conversational tools write partial answers
into a per-session store. A rule engine ranks candidate automation use
cases from the customer's pain points. An MVP plan is derived from the
ranking. `finalize_spec` overlays everything on a fixed template, adds the
derived compliance rule, renders a markdown report and records where the
JSON and markdown files go.

This project models that core:

- `app/modeling/spec_store.py`:
  - `SpecStore.set_value`, `merge` and `snapshot`;
  - the session registry behind `get_store`;
  - `merge_dicts` and the template;
  - the `spec_to_markdown` renderer and `persist_outputs`.
- `app/tools/spec_tools.py`:
  - the use-case ranking, the scope builder and the MVP plan;
  - `_fill_defaults` and `finalize_spec`;
  - the `save_answer`, `recommend_agent_types` and `generate_mvp_plan` tools.

The model is pure and immutable:

- Documents are trees of `Json.Value` (`None`, `bool`, `int`, `str`, `list`, `dict`).
- The module-level registry is a `map` from session id to store. It is passed in and handed back.
- The clock and the project configuration are parameters (`TemplateParams`, `now`).
- Every exception the Python code raises on a malformed document is a `Result` error:
  - `AttributeError` when something other than a dict is used as one;
  - `TypeError` when a list of non-strings is joined;
  - `KeyError` when an entry has no `use_case`.

Modules, one per file:

| module | file | models |
|---|---|---|
| `Results` | `results.dfy` | `Option`, `Result` and the Python exceptions |
| `Strings` | `strings.dfy` | `in`, `lower`, `split`, `join`, `replace`, `title`, `str(int)` |
| `Json` | `json.dfy` | values, truthiness, `dict.get`, `str()` in f-strings, `", ".join`, nested lookup |
| `Merge` | `merge.dfy` | `merge_dicts` and its algebra |
| `DottedPath` | `dotted_path.dfy` | the dotted-key walk of `set_value` |
| `Template` | `template.dfy` | `get_spec_template` |
| `Store` | `store.dfy` | `SpecStore` and `get_store` |
| `Report` | `report.dfy` | `spec_to_markdown` |
| `ReportText` | `report_text.dfy` | the text of each report section, and the report of a fresh template |
| `Persist` | `persist.dfy` | `persist_outputs` |
| `Ranking` | `ranking.dfy` | `_derive_use_case_priority` |
| `Plan` | `plan.dfy` | `_build_scope_from_use_cases` and the plan of `generate_mvp_plan` |
| `Finalize` | `finalize.dfy` | `_fill_defaults` and `finalize_spec` |
| `Tools` | `tools.dfy` | `save_answer`, `recommend_agent_types`, `generate_mvp_plan` |

### Behaviour worth knowing

- **A scalar in the middle of a dotted key.** `set_value` walks the
  dotted key with `setdefault`, which returns a value already stored there.
  A non-dict at an intermediate segment is therefore not overwritten. The
  next step raises:
  - `TypeError` when the scalar sits just before the last segment;
  - `AttributeError` further up.

  `DottedPath.ScalarIntermediateRaises` shows both cases.
- **Nested template keys under a scalar override.** A snapshot always
  holds the eleven top-level template sections
  (`Store.SnapshotHasAllSections`). Deeper template keys are lost when an
  edit stores a non-dict in place of their section.
  `Merge.ScalarOverrideDropsNestedKeys` gives the example, and
  `Store.SnapshotKeepsTemplatePath` states when they survive.
- **Two template readings.** `finalize_spec` reads the template twice, once
  in `snapshot` and once in `_fill_defaults`, so `generated_at` comes from
  two clock readings. The model takes both timestamps. `Finalize.FillSnapshot`
  shows that the second template adds nothing: the snapshot's timestamp is
  the one kept.
- **The shared compliance list.** `merge_dicts` builds a new dict only where
  both sides hold a dict under the same key. Every other value, lists and
  override-only dicts included, is the same object as in its input. So
  appending the audit rule to the filled document's compliance list also
  changes the list the store holds. `Finalize.ShareComplianceList` models
  that write-through.

## Model

| member | source | states |
|---|---|---|
| `Merge.MergeDicts` | examples/parlant-accounting-agent-discovery/app/modeling/spec_store.py:44-51 | the result has exactly the keys of both sides; a key only in the base keeps its value; an override value that is not a dict-over-dict wins verbatim; two dicts under the same key merge into a dict with both key sets |
| `Merge.MergeUnchangedIffAbsorbs` | examples/parlant-accounting-agent-discovery/app/modeling/spec_store.py:44-51 | merging `b` underneath `x` returns `x` unchanged if and only if `x` already holds every key of `b`, recursively where both hold dicts |
| `Merge.MergeIdempotent` | examples/parlant-accounting-agent-discovery/app/modeling/spec_store.py:44-51 | merging a document with itself returns it |
| `Merge.MergeIdentity` | examples/parlant-accounting-agent-discovery/app/modeling/spec_store.py:44-51 | the empty dict is a left and right identity of the merge |
| `Merge.CoveredMergeAbsorbs` | examples/parlant-accounting-agent-discovery/app/modeling/spec_store.py:44-51 | a merge onto a base of at least the shape of `b2` already holds everything `b2` could add |
| `Merge.ReMergeAbsorbed` | examples/parlant-accounting-agent-discovery/app/modeling/spec_store.py:44-51 | merging a base of no larger shape underneath a merge result changes nothing |
| `Merge.MergeAbsorption` | examples/parlant-accounting-agent-discovery/app/modeling/spec_store.py:44-51 | `merge_dicts(B, merge_dicts(B, O)) == merge_dicts(B, O)` |
| `Merge.MergeRightIdempotent` | examples/parlant-accounting-agent-discovery/app/modeling/spec_store.py:44-51 | applying the same override twice is applying it once |
| `Merge.MergeKeepsPath` | examples/parlant-accounting-agent-discovery/app/modeling/spec_store.py:44-51 | a nested path of the base survives the merge when the override holds no non-dict on one of its proper prefixes |
| `Merge.ScalarOverrideDropsNestedKeys` | examples/parlant-accounting-agent-discovery/app/modeling/spec_store.py:47-50 | a scalar override of a dict section drops the keys below that section |
| `Merge.MergeOverridePath` | examples/parlant-accounting-agent-discovery/app/modeling/spec_store.py:44-51 | a non-dict the override holds at the end of a path is what the merge holds there |
| `DottedPath.SetPath` | examples/parlant-accounting-agent-discovery/app/modeling/spec_store.py:20-26 | the walk succeeds exactly when no proper prefix of the path holds a non-dict; the value then reads back at the path; only the first segment's top-level key is added or changed |
| `DottedPath.SetValue` | examples/parlant-accounting-agent-discovery/app/modeling/spec_store.py:19-26 | the dotted assignment succeeds exactly when the split key is open in the data, and the value reads back under the split key |
| `DottedPath.SetPathFrame` | examples/parlant-accounting-agent-discovery/app/modeling/spec_store.py:19-26 | every path that parts ways with the assigned one reads the same before and after |
| `DottedPath.ScalarIntermediateRaises` | examples/parlant-accounting-agent-discovery/app/modeling/spec_store.py:22-26 | on `{"a": 1}`, `set_value("a.b", 2)` raises `TypeError` and `set_value("a.b.c", 2)` raises `AttributeError` |
| `DottedPath.DottedKeyRoundTrip` | examples/parlant-accounting-agent-discovery/app/modeling/spec_store.py:19-26 | `set_value("a.b.c", 42)` on an empty store creates the levels and 42 reads back at `a`, `b`, `c` |
| `Store.SetValue` | examples/parlant-accounting-agent-discovery/app/modeling/spec_store.py:19-26 | the store's assignment succeeds exactly when the key's path is open, keeps the session id, and the value reads back under the dotted key |
| `Store.SetTopLevel` | examples/parlant-accounting-agent-discovery/app/modeling/spec_store.py:19-26 | a key without dots is a plain top-level assignment that cannot fail |
| `Store.MergeInto` | examples/parlant-accounting-agent-discovery/app/modeling/spec_store.py:28-29 | merging keeps the session id, the keys become the union, and a non-dict incoming value replaces the stored one |
| `Store.MergeIntoTwice` | examples/parlant-accounting-agent-discovery/app/modeling/spec_store.py:28-29 | merging the same partial document twice equals merging it once |
| `Store.Snapshot` | examples/parlant-accounting-agent-discovery/app/modeling/spec_store.py:31-32 | the snapshot has every template section plus every key of the edits, and a non-dict edit shows through unchanged |
| `Store.SnapshotHasAllSections` | examples/parlant-accounting-agent-discovery/app/modeling/spec_store.py:19-32 | after any sequence of `set_value` and `merge` calls, the snapshot still has all eleven template sections |
| `Store.ApplyEdits` | examples/parlant-accounting-agent-discovery/app/modeling/spec_store.py:19-29 | no sequence of assignments and merges changes the store's session id |
| `Store.SnapshotKeepsTemplatePath` | examples/parlant-accounting-agent-discovery/app/modeling/spec_store.py:31-32 | a nested template key survives in the snapshot unless an edit replaced an enclosing section with a non-dict |
| `Store.SetValueThenSnapshot` | examples/parlant-accounting-agent-discovery/app/modeling/spec_store.py:19-32 | a non-dict stored through a dotted key reads back from the snapshot under that key |
| `Store.GetStore` | examples/parlant-accounting-agent-discovery/app/modeling/spec_store.py:38-41 | a registered session gets its own store and the registry is unchanged; an unknown one gets a new empty store that is registered; no other session's store changes |
| `Store.GetStoreStable` | examples/parlant-accounting-agent-discovery/app/modeling/spec_store.py:38-41 | the lookup keeps every store filed under its own id, and a second lookup of the same id returns the same store and registry |
| `Template.SpecTemplate` | examples/parlant-accounting-agent-discovery/app/modeling/spec_store.py:54-114 | the template has exactly the eleven top-level sections |
| `Template.TemplateSections` | examples/parlant-accounting-agent-discovery/app/modeling/spec_store.py:54-114 | schema version "1.0", an empty use-case list, an empty `final_output`, and the automation and rules sections with their default entries |
| `Template.TemplateParameters` | examples/parlant-accounting-agent-discovery/app/modeling/spec_store.py:57-113 | the configured currency sits in the customer profile; the clock reading, project and runtime sit in the metadata |
| `Template.TemplateShapeIgnoresClock` | examples/parlant-accounting-agent-discovery/app/modeling/spec_store.py:109-113 | two templates read at different times have the same shape |
| `Json.OrTbd` | examples/parlant-accounting-agent-discovery/app/modeling/spec_store.py:121-122 | a falsy value prints as "TBD" and a non-empty string prints as itself |
| `Json.JoinComma` | examples/parlant-accounting-agent-discovery/app/modeling/spec_store.py:126-126 | `", ".join` succeeds on a list exactly when every item is a string, joining their texts; on a string it joins the characters; an empty list joins to "" |
| `Report.Section` | examples/parlant-accounting-agent-discovery/app/modeling/spec_store.py:119-119 | a missing section reads as an empty dict; a present one must be a dict and is returned as is |
| `Report.JoinOrTbd` | examples/parlant-accounting-agent-discovery/app/modeling/spec_store.py:134-134 | succeeds exactly when `", ".join` does; gives the joined text when it is non-empty and "TBD" when it is empty (an empty list in particular); never empty |
| `Report.TextOrTbd` | examples/parlant-accounting-agent-discovery/app/modeling/spec_store.py:143-145 | falsy prints as "TBD"; a non-empty string as itself; a truthy non-string raises |
| `Report.OptionalLine` | examples/parlant-accounting-agent-discovery/app/modeling/spec_store.py:172-175 | one line exactly when the entry is truthy, reading the prefix followed by the printed entry; nothing otherwise |
| `Report.ContactsLines` | examples/parlant-accounting-agent-discovery/app/modeling/spec_store.py:125-126 | raises exactly when the contacts are truthy and cannot be joined; one line exactly when they are truthy, reading "- Contacts: " and the joined names |
| `Report.CustomerProfileLines` | examples/parlant-accounting-agent-discovery/app/modeling/spec_store.py:119-127 | the section opens with its heading, ends with a blank line, and holds a line starting "- Contacts: " if and only if the contacts are truthy |
| `Report.ProfileLines` | examples/parlant-accounting-agent-discovery/app/modeling/spec_store.py:120-127 | the section opens with its heading and ends with a blank line, and a line starting "- Contacts: " appears exactly when a contacts line was rendered |
| `Report.ContactsLineIffContacts` | examples/parlant-accounting-agent-discovery/app/modeling/spec_store.py:119-127 | in every rendered report, the Customer Profile section has a contacts line exactly when the contact list is truthy |
| `Report.CurrentStackLines` | examples/parlant-accounting-agent-discovery/app/modeling/spec_store.py:129-137 | the section has six lines, from its heading to a blank line |
| `Report.MetricLines` | examples/parlant-accounting-agent-discovery/app/modeling/spec_store.py:149-150 | at most one line per volume metric key |
| `Report.VolumeLines` | examples/parlant-accounting-agent-discovery/app/modeling/spec_store.py:146-150 | raises exactly when the metrics are truthy and not a dict; prints nothing unless some metric is truthy, and otherwise "- Volume Metrics:" followed by the template metrics' lines |
| `Report.ProblemStatementLines` | examples/parlant-accounting-agent-discovery/app/modeling/spec_store.py:139-151 | the section opens with its heading and ends with a blank line |
| `Report.UseCaseItemLines` | examples/parlant-accounting-agent-discovery/app/modeling/spec_store.py:156-163 | an entry renders exactly when it is a dict whose truthy success metrics can be joined; its first line is "- <use_case> (priority <priority>)"; a second line "  - Success metrics: " with the joined metrics appears exactly when they are truthy |
| `Report.UseCaseListLines` | examples/parlant-accounting-agent-discovery/app/modeling/spec_store.py:155-163 | every entry contributes at least one line, and the first line is an entry line |
| `Report.TargetUseCaseLines` | examples/parlant-accounting-agent-discovery/app/modeling/spec_store.py:153-166 | the section holds the single line "- TBD" if and only if the use-case list is falsy |
| `Report.NoUseCasesRendersTbd` | examples/parlant-accounting-agent-discovery/app/modeling/spec_store.py:153-166 | with no use cases the report carries "- TBD" right under the Target Use Cases heading |
| `Report.AutomationLines` | examples/parlant-accounting-agent-discovery/app/modeling/spec_store.py:168-176 | the section opens with its heading and ends with a blank line |
| `Report.RulesLines` | examples/parlant-accounting-agent-discovery/app/modeling/spec_store.py:178-186 | the section opens with its heading and ends with a blank line |
| `Report.IntegrationLines` | examples/parlant-accounting-agent-discovery/app/modeling/spec_store.py:188-199 | the section opens with its heading and ends with a blank line |
| `Report.OptionalJoinedLine` | examples/parlant-accounting-agent-discovery/app/modeling/spec_store.py:207-214 | raises exactly when the list is truthy and cannot be joined; one line exactly when it is truthy, reading the prefix and the joined items |
| `Report.MvpLines` | examples/parlant-accounting-agent-discovery/app/modeling/spec_store.py:201-215 | the section opens with its heading and its last line gives the estimated iterations |
| `Report.FrontSections` | examples/parlant-accounting-agent-discovery/app/modeling/spec_store.py:119-151 | the first three sections render to at least sixteen lines |
| `Report.BackSections` | examples/parlant-accounting-agent-discovery/app/modeling/spec_store.py:168-215 | the last four sections render to at least sixteen lines |
| `Report.Then` | examples/parlant-accounting-agent-discovery/app/modeling/spec_store.py:118-215 | sections render in order: the result is both parts together, and the first part that raised decides the error |
| `Report.Assemble` | examples/parlant-accounting-agent-discovery/app/modeling/spec_store.py:118-225 | the report opens with the title and a blank line, then the front sections and the Target Use Cases section in place, and closes with the guardrails |
| `Report.Layout` | examples/parlant-accounting-agent-discovery/app/modeling/spec_store.py:117-225 | the report renders exactly when every section does, a failing front section decides the error, and it opens with the title and closes with the guardrails |
| `Report.JoinReport` | examples/parlant-accounting-agent-discovery/app/modeling/spec_store.py:227-227 | joining with newlines succeeds exactly when the lines rendered; the text starts with the first line and a newline; when no line holds a newline it splits back into exactly the lines |
| `Report.MarkdownOpensWithTitle` | examples/parlant-accounting-agent-discovery/app/modeling/spec_store.py:117-227 | every rendered report starts with "# Agent Requirements Spec" and a newline |
| `ReportText.ProfileText` | examples/parlant-accounting-agent-discovery/app/modeling/spec_store.py:119-127 | the section raises exactly when it is not a dict or its truthy contacts cannot be joined; company and industry print or "TBD", country and currency print as stored, then the contacts line |
| `ReportText.StackText` | examples/parlant-accounting-agent-discovery/app/modeling/spec_store.py:129-137 | the section raises exactly when it is not a dict or its document sources cannot be joined; accounting system or "TBD", bank feeds as stored, sources joined or "TBD", API access as stored |
| `ReportText.ProblemText` | examples/parlant-accounting-agent-discovery/app/modeling/spec_store.py:139-151 | the section raises exactly when it is not a dict, the pain points cannot be joined, the process is a truthy non-string, or the metrics are a truthy non-dict; pain points joined or "TBD", process or "TBD", then the volume block |
| `ReportText.MetricLinesCover` | examples/parlant-accounting-agent-discovery/app/modeling/spec_store.py:146-150 | the metric lines are exactly "  - <Title Label>: <value>" for each template metric the dict holds, none missing and none added |
| `ReportText.UseCaseListText` | examples/parlant-accounting-agent-discovery/app/modeling/spec_store.py:155-163 | the list renders exactly when every entry does; each entry adds one or two lines, and every entry's heading line is in the list |
| `ReportText.TargetUseCaseText` | examples/parlant-accounting-agent-discovery/app/modeling/spec_store.py:153-164 | a truthy list renders exactly when its entries do, as the heading, the entries' lines and a blank line; a truthy string or dict raises `AttributeError`, a truthy bool or int `TypeError` |
| `ReportText.AutomationText` | examples/parlant-accounting-agent-discovery/app/modeling/spec_store.py:168-176 | the section raises exactly when it is not a dict; level and threshold print as stored, then the escalation path and failure policy lines when they are set |
| `ReportText.RulesText` | examples/parlant-accounting-agent-discovery/app/modeling/spec_store.py:178-186 | the section raises exactly when it is not a dict or the compliance list cannot be joined; the list joined or "TBD", then the tax notes line when set |
| `ReportText.IntegrationText` | examples/parlant-accounting-agent-discovery/app/modeling/spec_store.py:188-199 | the section raises exactly when it is not a dict or the systems cannot be joined; writeback as stored, systems joined or "TBD", then the deployment and retention lines when set |
| `ReportText.MvpText` | examples/parlant-accounting-agent-discovery/app/modeling/spec_store.py:201-215 | the section raises exactly when it is not a dict or one of its four lists cannot be joined; it opens with the recommended use case and ends with the estimated iterations, and holds the scope and sample-data lines (joined or "TBD") and each optional line, five lines plus the optional ones in all |
| `ReportText.TemplateRenders` | examples/parlant-accounting-agent-discovery/app/modeling/spec_store.py:54-227 | a fresh template renders to exactly the fixed report: company, industry, pain points, process, use cases, compliance, systems, scope and sample data all read "TBD", unset scalars print "None", the configured currency and approval threshold appear, and three iterations close the MVP section |
| `ReportText.DefaultSectionsRender` | examples/parlant-accounting-agent-discovery/app/modeling/spec_store.py:119-215 | any document whose sections hold the template's defaults renders to that same fixed report |
| `Persist.Suffix` | examples/parlant-accounting-agent-discovery/app/modeling/spec_store.py:231-231 | no suffix exactly for an empty session id; otherwise "_" followed by the id |
| `Persist.PathsFor` | examples/parlant-accounting-agent-discovery/app/modeling/spec_store.py:231-235 | both paths start with "outputs/agent_spec", end in ".json" and ".md", and agree apart from the extension |
| `Persist.PathsDistinguishSessions` | examples/parlant-accounting-agent-discovery/app/modeling/spec_store.py:230-235 | two different sessions whose ids hold no "/" never share an output file |
| `Persist.PersistOutputs` | examples/parlant-accounting-agent-discovery/app/modeling/spec_store.py:230-243 | the outputs are written exactly when the report renders, and the returned paths are the session's paths |
| `Ranking.Classify` | examples/parlant-accounting-agent-discovery/app/tools/spec_tools.py:46-52 | the first matching test decides: reconciliation exactly when the lower-cased text contains "recon"; else invoices when it contains "invoice" or "ap"; else month-end when it contains "month"; else no signal |
| `Ranking.ClassifyIgnoresCase` | examples/parlant-accounting-agent-discovery/app/tools/spec_tools.py:47-52 | lower-casing a pain point first does not change its classification |
| `Ranking.Entry` | examples/parlant-accounting-agent-discovery/app/tools/spec_tools.py:46-52 | a pain point at position `idx` contributes one entry exactly when it raises a signal: bank reconciliation, invoice review or month-end close with that signal's fixed reason, priority `idx + 1` and the three pain point metrics |
| `Ranking.Matches` | examples/parlant-accounting-agent-discovery/app/tools/spec_tools.py:46-52 | the pain points contribute at most one entry each |
| `Ranking.MatchesUseCases` | examples/parlant-accounting-agent-discovery/app/tools/spec_tools.py:46-52 | every pain point entry is bank reconciliation, invoice review or month-end close |
| `Ranking.NoMatchesIffNoSignal` | examples/parlant-accounting-agent-discovery/app/tools/spec_tools.py:46-56 | the fallback applies if and only if no pain point raises a signal |
| `Ranking.Renumber` | examples/parlant-accounting-agent-discovery/app/tools/spec_tools.py:69-70 | each entry's priority becomes its position from 1, and nothing else changes |
| `Ranking.Ranked` | examples/parlant-accounting-agent-discovery/app/tools/spec_tools.py:46-71 | the ranking has one to five entries, numbered 1, 2, ... in list order |
| `Ranking.RankedLeader` | examples/parlant-accounting-agent-discovery/app/tools/spec_tools.py:58-67 | GST/VAT review leads the ranking if and only if the system is Xero, QuickBooks or MYOB (any case), and its reason names the system |
| `Ranking.RankedFallback` | examples/parlant-accounting-agent-discovery/app/tools/spec_tools.py:54-70 | with no pain point signal, the ranking is expense coding then AR collections, after GST/VAT review when the system is known, renumbered |
| `Ranking.RankedFollowsPainPoints` | examples/parlant-accounting-agent-discovery/app/tools/spec_tools.py:46-71 | otherwise the entries after the optional GST/VAT review are the pain point entries in order, renumbered, cut to five in all |
| `Ranking.DeriveUseCasePriority` | examples/parlant-accounting-agent-discovery/app/tools/spec_tools.py:27-71 | errors in the order the code meets them: a non-dict problem statement, a non-dict current stack, pain points that cannot be iterated (`TypeError`), a non-string pain point, a truthy non-string system; otherwise the reference ranking of the pain point texts and the system, one to five entries numbered from 1 |
| `Ranking.PartialSection` | examples/parlant-accounting-agent-discovery/app/tools/spec_tools.py:28-29 | a falsy section reads as an empty dict, a dict as itself, and anything else raises |
| `Ranking.Iterate` | examples/parlant-accounting-agent-discovery/app/tools/spec_tools.py:46-46 | a list iterates its items and a string its characters; anything else raises `TypeError` |
| `Ranking.SystemText` | examples/parlant-accounting-agent-discovery/app/tools/spec_tools.py:29-29 | a falsy system reads as "", a string as itself, and a truthy non-string raises |
| `Ranking.StackCheckedBeforePainPoints` | examples/parlant-accounting-agent-discovery/app/tools/spec_tools.py:28-46 | with pain points 5 and current stack "x", the stack's `AttributeError` is raised, not the iteration's `TypeError` |
| `Ranking.RankUseCases` | examples/parlant-accounting-agent-discovery/app/tools/spec_tools.py:46-71 | the loop-based computation (match pass, fallback, insertion, renumbering pass, cut) equals the reference ranking |
| `Ranking.MatchPass` | examples/parlant-accounting-agent-discovery/app/tools/spec_tools.py:46-52 | the pass over the pain points appends exactly the reference entries |
| `Ranking.RenumberPass` | examples/parlant-accounting-agent-discovery/app/tools/spec_tools.py:69-70 | the in-place pass equals the reference renumbering |
| `Ranking.ReconciliationFocus` | examples/parlant-accounting-agent-discovery/app/tools/spec_tools.py:46-71 | ["slow reconciliation", "manual errors"] and no system rank bank reconciliation first with priority 1 |
| `Ranking.KnownSystemFallback` | examples/parlant-accounting-agent-discovery/app/tools/spec_tools.py:54-70 | no pain points and "Xero" give GST/VAT review, expense coding and AR collections, numbered 1 to 3 |
| `Ranking.ApMatchesGap` | examples/parlant-accounting-agent-discovery/app/tools/spec_tools.py:49-50 | "gap in reports" counts as an invoice pain point because "ap" is a substring test |
| `Plan.NameList` | examples/parlant-accounting-agent-discovery/app/tools/spec_tools.py:87-90 | the names come out exactly when every entry is a dict; they are the truthy `use_case` values in order |
| `Plan.ScopeNames` | examples/parlant-accounting-agent-discovery/app/tools/spec_tools.py:87-90 | only the first two entries are read, and they must be dicts; their truthy names come out in order, in each of the four truthy/falsy combinations |
| `Plan.BuildScope` | examples/parlant-accounting-agent-discovery/app/tools/spec_tools.py:82-107 | one workflow, sample-data line and metric per named use case; the fixed invoice workflow when none is named; the fixed out-of-scope pair |
| `Plan.UseCaseList` | examples/parlant-accounting-agent-discovery/app/tools/spec_tools.py:113-113 | a falsy entry reads as the empty list, and a list reads as itself |
| `Plan.AutomationLevel` | examples/parlant-accounting-agent-discovery/app/tools/spec_tools.py:114-116 | the level given, "Human-in-the-loop" when the key is absent, and an error when the section is truthy but not a dict |
| `Plan.UseCaseAt` | examples/parlant-accounting-agent-discovery/app/tools/spec_tools.py:119-124 | the fallback past the end; otherwise the entry's `use_case`, available exactly when the entry is a dict with that key |
| `Plan.GenerateMvpPlan` | examples/parlant-accounting-agent-discovery/app/tools/spec_tools.py:113-131 | malformed automation preferences raise before anything else; the plan succeeds exactly when the preferences and the list read, the first two entries are dicts, and each of the first two present has a `use_case`; it then has three iterations, the level passed through, the scope of the list, and the first and second names or the invoice fallback and `None` |
| `Plan.AutomationCheckedBeforeUseCases` | examples/parlant-accounting-agent-discovery/app/tools/spec_tools.py:113-117 | with use cases 5 and automation preferences "x", the preferences' `AttributeError` is raised |
| `Plan.EmptyPlanInput` | examples/parlant-accounting-agent-discovery/app/tools/spec_tools.py:113-131 | an empty list and "Advice only" give the invoice fallback, no second priority, three iterations and the level unchanged |
| `Plan.RankingScopeNames` | examples/parlant-accounting-agent-discovery/app/tools/spec_tools.py:87-95 | the scope names of a ranking are its first one or two use cases |
| `Plan.PlanOfNamedUseCases` | examples/parlant-accounting-agent-discovery/app/tools/spec_tools.py:113-131 | when the first two entries are dicts with a `use_case` and some name is truthy, the plan succeeds and its scope opens with the first name's workflow, one per name |
| `Plan.PlanFollowsRanking` | examples/parlant-accounting-agent-discovery/app/tools/spec_tools.py:110-131 | planning from a stored ranking recommends its first use case and names its second, and the scope starts with the first one's workflow |
| `Finalize.HoldsAudit` | examples/parlant-accounting-agent-discovery/app/tools/spec_tools.py:145-145 | the membership test works on lists, strings and dicts and raises on anything else; on a list it is list membership |
| `Finalize.AddAuditRule` | examples/parlant-accounting-agent-discovery/app/tools/spec_tools.py:140-146 | no autopost means no change; on success with autopost the audit rule is listed; an already listed rule means no change; only the rules section may change, and when it does it keeps every other entry and its compliance list becomes the old list with the rule appended |
| `Finalize.AuditAppendedOnce` | examples/parlant-accounting-agent-discovery/app/tools/spec_tools.py:141-146 | the rule is appended to a list lacking it, exactly once, and the rest of the list is kept |
| `Finalize.AddAuditRuleIdempotent` | examples/parlant-accounting-agent-discovery/app/tools/spec_tools.py:140-146 | applying the rule twice is applying it once |
| `Finalize.AddAuditRuleKeepsAbsorbs` | examples/parlant-accounting-agent-discovery/app/tools/spec_tools.py:140-146 | after the rule, the document still holds everything a template contributes |
| `Finalize.FillWith` | examples/parlant-accounting-agent-discovery/app/tools/spec_tools.py:136-147 | the filled document has the template's and the document's keys, non-dict document entries show through, and autopost implies the audit rule |
| `Finalize.FillDefaults` | examples/parlant-accounting-agent-discovery/app/tools/spec_tools.py:136-147 | the filled document has every template section and every key of the document |
| `Finalize.FillIdempotent` | examples/parlant-accounting-agent-discovery/app/tools/spec_tools.py:136-147 | filling an already filled document changes nothing |
| `Finalize.FillSnapshot` | examples/parlant-accounting-agent-discovery/app/tools/spec_tools.py:152-154 | filling a snapshot against a later template is just the audit rule on the snapshot |
| `Finalize.FinalizeAddsAuditOnce` | examples/parlant-accounting-agent-discovery/app/tools/spec_tools.py:150-154 | finalizing an autopost document whose compliance list lacks the audit rule yields that list with the rule appended exactly once, whatever the store held before |
| `Finalize.ShareComplianceList` | examples/parlant-accounting-agent-discovery/app/tools/spec_tools.py:142-146 | when the store holds the compliance list as a list and the filled document has one, the stored list becomes the filled list; otherwise the store is returned as it was; the key set, every other top-level entry and every other entry of the rules section stay as they were |
| `Finalize.FinalOutput` | examples/parlant-accounting-agent-discovery/app/tools/spec_tools.py:157-164 | the result carries both paths and the filled document, a "markdown" entry exactly when the document's markdown is truthy, and no other entry |
| `Finalize.Complete` | examples/parlant-accounting-agent-discovery/app/tools/spec_tools.py:155-167 | succeeds exactly when the outputs were written and `final_output` is a dict; the result is then the final output with the document's markdown rule, stored under `final_output`; a failed write raises its own error; the store is the merged store with the shared compliance list, plus `final_output` on success and nothing else; every entry other than the rules section and `final_output` stays as it was |
| `Finalize.Conclude` | examples/parlant-accounting-agent-discovery/app/tools/spec_tools.py:155-167 | other sessions are untouched; a failed fill stores the merged store exactly; a failed report or write after a successful fill stores it with only the shared compliance list changed; in every case each merged entry other than the rules section and `final_output` is stored as it was merged; after a successful fill it succeeds exactly when the report renders and `final_output` is a dict, and its result carries the session's paths, the filled document and "markdown" exactly when that document's markdown is truthy |
| `Finalize.Finalize` | examples/parlant-accounting-agent-discovery/app/tools/spec_tools.py:150-167 | the session is registered and keeps every key of `spec`; every edit in `spec` that is not a dict, outside the rules section and `final_output`, is stored exactly as sent; no other session changes; a failed fill is its error; after a successful fill it succeeds exactly when the report renders and `final_output` is a dict, and the stored output carries the paths, the filled snapshot of the merged store and its truthy markdown |
| `Tools.SaveAnswer` | examples/parlant-accounting-agent-discovery/app/tools/spec_tools.py:20-24 | the answer reads back under its dotted key, and the reply is exactly status "saved", the key and the value; every top-level entry other than the key's first segment stays as it was; it fails exactly when the path is blocked, leaving the store as it was; other sessions are untouched |
| `Tools.Record` | examples/parlant-accounting-agent-discovery/app/tools/spec_tools.py:76-78 | a computed value is stored under its key and the session stays registered; a failed computation leaves the store as it was |
| `Tools.RecommendAgentTypes` | examples/parlant-accounting-agent-discovery/app/tools/spec_tools.py:74-79 | the ranking is stored as the session's target use cases and returned under "recommended"; it fails exactly when the ranking does, with the ranking's own error, leaving the store as it was |
| `Tools.GenerateMvpPlan` | examples/parlant-accounting-agent-discovery/app/tools/spec_tools.py:110-133 | the plan is stored as the MVP definition and returned; it fails exactly when the plan does, with the plan's own error, leaving the store as it was; other sessions are untouched |
| `Strings.JoinSplit` | examples/parlant-accounting-agent-discovery/app/modeling/spec_store.py:20-20 | joining the pieces of a split gives back the dotted key |
| `Strings.SplitJoin` | examples/parlant-accounting-agent-discovery/app/modeling/spec_store.py:227-227 | splitting a join recovers the pieces when none holds the separator |

## Left out

- `app/main.py` and `app/config.py` are not part of this model. The Parlant
  server, the agent guidelines and the tool registration are outside it.
  The configuration values reach the model as `TemplateParams`.
- File I/O in `persist_outputs` is left out: the directory creation, the
  JSON dump and the markdown write. The model keeps the path choice and the
  rendering that can raise before the markdown file is written. `Path`
  normalization is left out too, so paths are plain concatenation.
  `pathlib` reads a session id such as `"a//b"` or `"a/./b"` as `"a/b"`.
- Dict insertion order is not kept, because dicts are `map`s. Because of
  that:
  - the report prints volume metrics in the template's four-key order, and
    only those keys;
  - `", ".join` of a dict, which joins its keys, is treated as an error.
- `str()` of a list or dict is approximated. Lists print their items'
  `repr`, with strings in single quotes. Dicts print as `{...}`.
- `lower` and `title` map ASCII letters only.
- Floats are left out. A float in a document has no `Value` form.
- Concurrency is left out: the tools are `async` but do not interleave here.
  Aliasing between documents is modelled only where the code relies on it,
  which is the compliance list shared by the store and the filled document.
- Report.ReportLines and Report.SpecToMarkdown carry no contract of their
  own. Their properties are stated through `Report.Layout`,
  `Report.JoinReport`, `Report.MarkdownOpensWithTitle`,
  `Report.NoUseCasesRendersTbd` and `Report.ContactsLineIffContacts`.
- Report.FrontSections: states only a length bound. The text of its three
  sections is stated by `ReportText.ProfileText`, `ReportText.StackText`
  and `ReportText.ProblemText`, and `Report.Then` states how they join.
- Report.BackSections: states only a length bound. The text of its four
  sections is stated by `ReportText.AutomationText`, `ReportText.RulesText`,
  `ReportText.IntegrationText` and `ReportText.MvpText`, and `Report.Then`
  states how they join.
- Report.CustomerProfileLines: states the heading, the closing blank line
  and the contacts line; the field lines are `ReportText.ProfileText`.
  Content stated on the section functions themselves would be re-proved at
  every use of the report, so the section texts live in lemmas.
- Report.ProfileLines: states the heading, the closing blank line and the
  contacts line; the field lines are `ReportText.ProfileText`.
- Report.CurrentStackLines: states the shape only; see `ReportText.StackText`.
- Report.ProblemStatementLines: states the shape only; see `ReportText.ProblemText`.
- Report.AutomationLines: states the shape only; see `ReportText.AutomationText`.
- Report.RulesLines: states the shape only; see `ReportText.RulesText`.
- Report.IntegrationLines: states the shape only; see `ReportText.IntegrationText`.
- Report.MvpLines: states the shape only; see `ReportText.MvpText`.
- Report.TargetUseCaseLines: states the heading, the blank line and the
  "- TBD" rule; the lines of a truthy list and its errors are
  `ReportText.TargetUseCaseText`.
- Report.MetricLines: states only a length bound; the lines themselves are
  `ReportText.MetricLinesCover`.
- Report.UseCaseListLines: states a length bound and the first line; see
  `ReportText.UseCaseListText`.
- ReportText.MvpText: states the scope, sample-data and optional lines by
  membership and count, not by position.
- ReportText.UseCaseListText: states that every entry's heading line is in
  the list, not its position; the order of the entries is not stated.
- Finalize.Complete: does not state that the markdown write succeeds
  exactly when the report renders; that is `Persist.PersistOutputs`, whose
  result it takes as an argument.
- Finalize.FillDefaults: states only the keys of the result; the audit rule
  and the pass-through of entries are stated on `Finalize.FillWith`, which
  it calls with the template.
- Finalize.Finalize: does not state which error a failed report raises,
  only that it fails. Its store frame covers the edits that are not dicts;
  the merge of dict edits and the frame over every merged entry are stated
  on `Store.MergeInto` and `Finalize.Conclude`.
- Ranking.DeriveUseCasePriority: pain points held in a dict raise
  `TypeError` in the model. Python iterates a dict's keys in insertion
  order, and a `map` has no order to iterate in.
- Persist.PathsDistinguishSessions: promises nothing for session ids that
  hold a "/". `pathlib` reads `"a//b"` and `"a/./b"` as `"a/b"`, so such
  ids can share files, and path normalization is not modelled.
- Plan.NameList: states the names completely only when every entry's name
  is truthy or every one is falsy, and the first name otherwise.
  `Plan.ScopeNames`, which only ever passes it two entries, states all four
  truthy/falsy cases.
- Plan.UseCaseList: use cases held in a dict raise `TypeError` in the
  model. From Python 3.12 on, slicing a dict raises `KeyError` instead.

=== FILE: dotted_path.dfy ===
/** `SpecStore.set_value`: assignment through a dotted key such as
    `current_stack.accounting_system`. Missing intermediate levels are created
    as empty dicts; an intermediate level that already holds something other
    than a dict is kept (`setdefault` returns it), so the next step raises. */
module DottedPath {
  import opened Results
  import opened Json
  import Strings

  /** The walk of `set_value` from `d` along `path`, with `value` stored at the end. */
  function SetPath(d: Dict, path: seq<string>, value: Value): (r: Result<Dict>)
    requires |path| >= 1
    ensures r.Ok? <==> PathOpen(d, path)
    ensures r.Ok? ==> Lookup(Obj(r.value), path) == Some(value)
    ensures r.Ok? ==> r.value.Keys == d.Keys + {path[0]}
    ensures r.Ok? ==> forall k :: k in d && k != path[0] ==> r.value[k] == d[k]
    decreases |path|
  {
    if |path| == 1 then Ok(d[path[0] := value])
    else
      // `cursor.setdefault(part, {})` keeps an existing value of any type
      var child := Get(d, path[0], Obj(EmptyDict));
      if child.Obj? then
        var sub :- SetPath(child.fields, path[1..], value);
        Ok(d[path[0] := Obj(sub)])
      else if |path| == 2 then
        // `cursor[part] = value` on a non-dict
        Err(TypeError(path[0]))
      else
        // `cursor.setdefault(...)` on a non-dict
        Err(AttributeError(path[0]))
  }

  /** `set_value(dotted_key, value)` on the dict `data`. */
  function SetValue(data: Dict, dottedKey: string, value: Value): (r: Result<Dict>)
    ensures r.Ok? <==> PathOpen(data, Strings.Split(dottedKey, '.'))
    ensures r.Ok? ==> Lookup(Obj(r.value), Strings.Split(dottedKey, '.')) == Some(value)
  {
    SetPath(data, Strings.Split(dottedKey, '.'), value)
  }

  /** `q` and `path` part ways: at some position both have, they name different keys. */
  predicate Diverges(q: seq<string>, path: seq<string>) {
    exists i :: 0 <= i < |q| && i < |path| && q[i] != path[i]
  }

  /** Nothing off the assigned path changes: every path that parts ways with
      it reads the same before and after. */
  lemma {:induction false} SetPathFrame(d: Dict, path: seq<string>, value: Value, q: seq<string>)
    requires |path| >= 1
    requires SetPath(d, path, value).Ok?
    requires Diverges(q, path)
    ensures Lookup(Obj(SetPath(d, path, value).value), q) == Lookup(Obj(d), q)
    decreases |path|
  {
    var r := SetPath(d, path, value).value;
    var i :| 0 <= i < |q| && i < |path| && q[i] != path[i];
    if q[0] != path[0] {
    } else {
      assert i >= 1;
      var child := Get(d, path[0], Obj(EmptyDict));
      assert Diverges(q[1..], path[1..]) by {
        assert q[1..][i - 1] != path[1..][i - 1];
      }
      SetPathFrame(child.fields, path[1..], value, q[1..]);
      assert r[path[0]] == Obj(SetPath(child.fields, path[1..], value).value);
    }
  }

  /** A key with a scalar at an intermediate segment is refused rather than
      overwritten: `{"a": 1}` followed by `set_value("a.b", 2)` raises. */
  lemma ScalarIntermediateRaises()
    ensures SetValue(map["a" := Int(1)], "a.b", Int(2)) == Err(TypeError("a"))
    ensures SetValue(map["a" := Int(1)], "a.b.c", Int(2)) == Err(AttributeError("a"))
  {
    KeySplits(["a", "b"], "a.b");
    assert Strings.Join(["b", "c"], ".") == "b.c";
    KeySplits(["a", "b", "c"], "a.b.c");
  }

  /** The dotted-key round trip: after `set_value("a.b.c", 42)` on an empty
      store, `data["a"]["b"]["c"] == 42`. */
  lemma DottedKeyRoundTrip()
    ensures SetValue(EmptyDict, "a.b.c", Int(42)).Ok?
    ensures Lookup(Obj(SetValue(EmptyDict, "a.b.c", Int(42)).value), ["a", "b", "c"]) == Some(Int(42))
  {
    KeySplits(["a", "b", "c"], "a.b.c");
  }

  /** A dotted key written as its dot-free segments splits back into them. */
  lemma KeySplits(parts: seq<string>, key: string)
    requires |parts| >= 1
    requires forall i :: 0 <= i < |parts| ==> '.' !in parts[i]
    requires Strings.Join(parts, ".") == key
    ensures Strings.Split(key, '.') == parts
  {
    Strings.SplitJoin(parts, '.');
  }
}

=== FILE: finalize.dfy ===
/** `_fill_defaults` and `finalize_spec`: the finished document is a fresh
    template overlaid with the session's snapshot, plus one derived rule —
    asking for autoposting with approvals makes an audit log a compliance
    requirement. */
module Finalize {
  import opened Results
  import opened Json
  import opened Merge
  import opened Template
  import Strings
  import Store
  import Persist
  import Report

  const AutopostLevel := "Autopost with approvals"
  const AuditRule := "Audit log required"
  const AutomationKey := "automation_preferences"
  const LevelKey := "automation_level"
  const RulesKey := "rules_and_policies"
  const ComplianceKey := "compliance_requirements"

  /** `"Audit log required" in reqs`: list membership, substring of a
      string, key of a dict; anything else cannot be searched. */
  function HoldsAudit(reqs: Value): (r: Result<bool>)
    ensures r.Ok? <==> reqs.Arr? || reqs.Str? || reqs.Obj?
    ensures reqs.Arr? ==> r == Ok(Str(AuditRule) in reqs.items)
  {
    match reqs
    case Arr(items) => Ok(Str(AuditRule) in items)
    case Str(s) => Ok(Strings.Contains(s, AuditRule))
    case Obj(m) => Ok(AuditRule in m)
    case _ => Err(TypeError(ComplianceKey))
  }

  /** The document asks for autoposting with approvals. */
  predicate AutopostRequested(d: Dict) {
    Lookup(Obj(d), [AutomationKey, LevelKey]) == Some(Str(AutopostLevel))
  }

  /** The document lists the audit rule among its compliance requirements. */
  predicate AuditListed(d: Dict) {
    match Lookup(Obj(d), [RulesKey, ComplianceKey])
    case Some(reqs) => HoldsAudit(reqs) == Ok(true)
    case None => false
  }

  lemma LookupTwo(d: Dict, k1: string, k2: string)
    ensures Lookup(Obj(d), [k1, k2]) ==
      if k1 in d && d[k1].Obj? && k2 in d[k1].fields then Some(d[k1].fields[k2]) else None
  {
    assert [k1, k2][1..] == [k2];
    assert [k2][1..] == [];
  }

  /** The audit rule applied to an already merged document. The automation
      section must be a dict; when autoposting with approvals is requested the
      rules section and its compliance list are created if missing, and the
      rule is appended unless already there. Only a list can be appended to. */
  function AddAuditRule(filled: Dict): (r: Result<Dict>)
    ensures r.Ok? ==> filled.Keys <= r.value.Keys <= filled.Keys + {RulesKey}
    ensures r.Ok? ==> forall k :: k in filled && k != RulesKey ==> r.value[k] == filled[k]
    ensures Get(filled, AutomationKey, Obj(EmptyDict)).Obj? && !AutopostRequested(filled) ==> r == Ok(filled)
    ensures r.Ok? && AutopostRequested(filled) ==> AuditListed(r.value)
    ensures AuditListed(filled) && Get(filled, AutomationKey, Obj(EmptyDict)).Obj? ==> r == Ok(filled)
    ensures r.Ok? && r.value != filled ==>
      var before := Get(filled, RulesKey, Obj(EmptyDict));
      && RulesKey in r.value && before.Obj? && r.value[RulesKey].Obj?
      && var after := r.value[RulesKey].fields;
         && after.Keys == before.fields.Keys + {ComplianceKey}
         && (forall k :: k in before.fields && k != ComplianceKey ==> after[k] == before.fields[k])
         && Get(before.fields, ComplianceKey, Arr([])).Arr?
         && after[ComplianceKey] == Arr(Get(before.fields, ComplianceKey, Arr([])).items + [Str(AuditRule)])
  {
    LookupTwo(filled, AutomationKey, LevelKey);
    LookupTwo(filled, RulesKey, ComplianceKey);
    var auto := Get(filled, AutomationKey, Obj(EmptyDict));
    if !auto.Obj? then Err(AttributeError(AutomationKey))
    else if GetOrNull(auto.fields, LevelKey) != Str(AutopostLevel) then Ok(filled)
    else
      var rules := Get(filled, RulesKey, Obj(EmptyDict));
      if !rules.Obj? then Err(AttributeError(RulesKey))
      else
        var reqs := Get(rules.fields, ComplianceKey, Arr([]));
        var held :- HoldsAudit(reqs);
        if held then Ok(filled)
        else if reqs.Arr? then
          var r := filled[RulesKey := Obj(rules.fields[ComplianceKey := Arr(reqs.items + [Str(AuditRule)])])];
          LookupTwo(r, RulesKey, ComplianceKey);
          Ok(r)
        else Err(AttributeError(ComplianceKey))
  }

  /** `_fill_defaults` with the template it reads passed in: the template
      overlaid with `spec`, then the audit rule. */
  function FillWith(t: Dict, spec: Dict): (r: Result<Dict>)
    ensures r.Ok? ==> t.Keys + spec.Keys <= r.value.Keys
    ensures r.Ok? ==> forall k :: k in spec && k != RulesKey && !spec[k].Obj? ==> r.value[k] == spec[k]
    ensures r.Ok? && AutopostRequested(MergeDicts(t, spec)) ==> AuditListed(r.value)
  {
    AddAuditRule(MergeDicts(t, spec))
  }

  /** `_fill_defaults(spec)` reading the template at `now`. */
  function FillDefaults(p: TemplateParams, now: string, spec: Dict): (r: Result<Dict>)
    ensures r.Ok? ==> TopLevelKeys + spec.Keys <= r.value.Keys
  {
    FillWith(SpecTemplate(p, now), spec)
  }

  /** When the rule fires on a compliance list without the audit entry, the
      entry is appended exactly once and the rest of the list is kept. */
  lemma AuditAppendedOnce(filled: Dict, items: seq<Value>)
    requires AutopostRequested(filled)
    requires Lookup(Obj(filled), [RulesKey, ComplianceKey]) == Some(Arr(items))
    requires Str(AuditRule) !in items
    ensures AddAuditRule(filled).Ok?
    ensures Lookup(Obj(AddAuditRule(filled).value), [RulesKey, ComplianceKey]) == Some(Arr(items + [Str(AuditRule)]))
    ensures multiset(items + [Str(AuditRule)])[Str(AuditRule)] == 1
  {
    LookupTwo(filled, AutomationKey, LevelKey);
    LookupTwo(filled, RulesKey, ComplianceKey);
    var r := AddAuditRule(filled).value;
    LookupTwo(r, RulesKey, ComplianceKey);
    assert multiset(items)[Str(AuditRule)] == 0;
  }

  /** Applying the rule twice is applying it once. */
  lemma AddAuditRuleIdempotent(filled: Dict)
    requires AddAuditRule(filled).Ok?
    ensures AddAuditRule(AddAuditRule(filled).value) == AddAuditRule(filled)
  {
    var r := AddAuditRule(filled).value;
    LookupTwo(filled, AutomationKey, LevelKey);
    LookupTwo(r, AutomationKey, LevelKey);
    assert Get(r, AutomationKey, Obj(EmptyDict)) == Get(filled, AutomationKey, Obj(EmptyDict));
  }

  /** The value `AddAuditRule` leaves under the rules section, seen as a write
      of a non-dict leaf two levels down. */
  lemma {:induction false} AbsorbsAfterLeafWrite(x: Dict, b: Dict, k1: string, k2: string, leaf: Value)
    requires Absorbs(x, b)
    requires k1 in x ==> x[k1].Obj?
    requires !leaf.Obj?
    ensures Absorbs(x[k1 := Obj((if k1 in x then x[k1].fields else EmptyDict)[k2 := leaf])], b)
  {
    var inner := if k1 in x then x[k1].fields else EmptyDict;
    var y := x[k1 := Obj(inner[k2 := leaf])];
    forall k | k in b && y[k].Obj? && b[k].Obj?
      ensures Absorbs(y[k].fields, b[k].fields)
    {
      if k == k1 {
        var bk := b[k].fields;
        assert Absorbs(inner, bk);
        forall j | j in bk && inner[k2 := leaf][j].Obj? && bk[j].Obj?
          ensures Absorbs(inner[k2 := leaf][j].fields, bk[j].fields)
        {
          assert j != k2;
        }
      }
    }
  }

  /** The rule only ever writes a list below the rules section, so whatever
      a template contributes is still absorbed afterwards. */
  lemma AddAuditRuleKeepsAbsorbs(filled: Dict, b: Dict)
    requires Absorbs(filled, b)
    requires AddAuditRule(filled).Ok?
    ensures Absorbs(AddAuditRule(filled).value, b)
  {
    var r := AddAuditRule(filled).value;
    if r != filled {
      var rules := Get(filled, RulesKey, Obj(EmptyDict));
      var reqs := Get(rules.fields, ComplianceKey, Arr([]));
      AbsorbsAfterLeafWrite(filled, b, RulesKey, ComplianceKey, Arr(reqs.items + [Str(AuditRule)]));
    }
  }

  /** Filling an already filled document against any template of no larger
      shape changes nothing: the rule is not applied twice and the template
      adds nothing. */
  lemma FillIdempotent(t1: Dict, t2: Dict, spec: Dict)
    requires Covers(t1, t2)
    requires FillWith(t1, spec).Ok?
    ensures FillWith(t2, FillWith(t1, spec).value) == FillWith(t1, spec)
  {
    var x := MergeDicts(t1, spec);
    var f := FillWith(t1, spec).value;
    CoveredMergeAbsorbs(t1, t2, spec);
    AddAuditRuleKeepsAbsorbs(x, t2);
    MergeUnchangedIffAbsorbs(t2, f);
    AddAuditRuleIdempotent(x);
  }

  /** Filling a snapshot against a template read later is the audit rule
      applied to the snapshot itself: the snapshot's own clock reading is
      kept and the second template adds nothing. */
  lemma FillSnapshot(s: Store.SpecStore, p: TemplateParams, now1: string, now2: string)
    ensures FillDefaults(p, now2, Store.Snapshot(s, p, now1)) == AddAuditRule(Store.Snapshot(s, p, now1))
  {
    TemplateShapeIgnoresClock(p, now1, now2);
    ReMergeAbsorbed(SpecTemplate(p, now1), SpecTemplate(p, now2), s.data);
  }

  /** However often a session finalizes a document that asks for autoposting
      with approvals and lists compliance requirements without the audit
      entry, the finished document carries that list with the audit entry
      appended exactly once: the incoming list replaces whatever the store
      held, the template adds nothing, and the rule appends to that list. */
  lemma FinalizeAddsAuditOnce(s: Store.SpecStore, spec: Dict, items: seq<Value>,
                              p: TemplateParams, now1: string, now2: string)
    requires Lookup(Obj(spec), [AutomationKey, LevelKey]) == Some(Str(AutopostLevel))
    requires Lookup(Obj(spec), [RulesKey, ComplianceKey]) == Some(Arr(items))
    requires Str(AuditRule) !in items
    ensures var fill := FillDefaults(p, now2, Store.Snapshot(Store.MergeInto(s, spec), p, now1));
      fill.Ok? && Lookup(Obj(fill.value), [RulesKey, ComplianceKey]) == Some(Arr(items + [Str(AuditRule)]))
  {
    var level := [AutomationKey, LevelKey];
    var reqs := [RulesKey, ComplianceKey];
    var merged := Store.MergeInto(s, spec);
    MergeOverridePath(s.data, spec, level, Str(AutopostLevel));
    MergeOverridePath(s.data, spec, reqs, Arr(items));
    var snap := Store.Snapshot(merged, p, now1);
    MergeOverridePath(SpecTemplate(p, now1), merged.data, level, Str(AutopostLevel));
    MergeOverridePath(SpecTemplate(p, now1), merged.data, reqs, Arr(items));
    FillSnapshot(merged, p, now1, now2);
    AuditAppendedOnce(snap, items);
  }

  /** The session's own compliance list is the very list the rule appends to
      (`merge_dicts` builds new dicts only where both sides hold one, and
      shares every other value), so a successful fill leaves the appended
      entry in the store as well. */
  function ShareComplianceList(s: Store.SpecStore, filled: Dict): (r: Store.SpecStore)
    ensures r.sessionId == s.sessionId && r.data.Keys == s.data.Keys
    ensures forall k :: k in s.data && k != RulesKey ==> r.data[k] == s.data[k]
    ensures ((exists items :: Lookup(Obj(s.data), [RulesKey, ComplianceKey]) == Some(Arr(items)))
      && Lookup(Obj(filled), [RulesKey, ComplianceKey]).Some?) ==>
      Lookup(Obj(r.data), [RulesKey, ComplianceKey]) == Lookup(Obj(filled), [RulesKey, ComplianceKey])
    ensures !(Lookup(Obj(s.data), [RulesKey, ComplianceKey]).Some? && Lookup(Obj(s.data), [RulesKey, ComplianceKey]).value.Arr?)
      ==> r == s
    ensures Lookup(Obj(filled), [RulesKey, ComplianceKey]).None? ==> r == s
    ensures RulesKey in s.data && s.data[RulesKey].Obj? ==>
      && r.data[RulesKey].Obj?
      && r.data[RulesKey].fields.Keys == s.data[RulesKey].fields.Keys
      && forall k :: k in s.data[RulesKey].fields && k != ComplianceKey ==>
           r.data[RulesKey].fields[k] == s.data[RulesKey].fields[k]
  {
    var d := s.data;
    LookupTwo(d, RulesKey, ComplianceKey);
    LookupTwo(filled, RulesKey, ComplianceKey);
    if && RulesKey in d && d[RulesKey].Obj?
       && ComplianceKey in d[RulesKey].fields && d[RulesKey].fields[ComplianceKey].Arr?
       && RulesKey in filled && filled[RulesKey].Obj? && ComplianceKey in filled[RulesKey].fields
    then
      var r := s.(data := d[RulesKey := Obj(d[RulesKey].fields[ComplianceKey := filled[RulesKey].fields[ComplianceKey]])]);
      LookupTwo(r.data, RulesKey, ComplianceKey);
      r
    else s
  }

  /** `finalize_spec`'s result: both output paths, the filled document and,
      when the document already carries a truthy markdown entry under
      `final_output`, that entry. */
  function FinalOutput(paths: Persist.OutputPaths, filled: Dict, markdown: Value): (r: Value)
    ensures r.Obj? && {"json_path", "markdown_path", "spec"} <= r.fields.Keys
    ensures r.fields["spec"] == Obj(filled)
    ensures r.fields["json_path"] == Str(paths.json) && r.fields["markdown_path"] == Str(paths.markdown)
    ensures "markdown" in r.fields <==> Truthy(markdown)
    ensures "markdown" in r.fields ==> r.fields["markdown"] == markdown
    ensures r.fields.Keys <= {"json_path", "markdown_path", "spec", "markdown"}
  {
    var base := map["json_path" := Str(paths.json), "markdown_path" := Str(paths.markdown), "spec" := Obj(filled)];
    Obj(if Truthy(markdown) then base["markdown" := markdown] else base)
  }

  /** `filled.get("final_output", {}).get("markdown")` once the section is
      known to be a dict; `None` otherwise. */
  function MarkdownOf(filled: Dict): Value {
    var section := Get(filled, "final_output", Obj(EmptyDict));
    if section.Obj? then GetOrNull(section.fields, "markdown") else Null
  }

  /** The `final_output` entry of `filled` is one `.get` can be called on. */
  predicate FinalOutputReadable(filled: Dict) {
    Get(filled, "final_output", Obj(EmptyDict)).Obj?
  }

  /** `out` carries the document `filled`, the output paths `paths`, and a
      "markdown" entry exactly when `filled` holds a truthy one, which it
      copies; nothing else. */
  predicate OutputOf(out: Value, filled: Dict, paths: Persist.OutputPaths) {
    && out.Obj?
    && {"json_path", "markdown_path", "spec"} <= out.fields.Keys
    && out.fields.Keys <= {"json_path", "markdown_path", "spec", "markdown"}
    && out.fields["spec"] == Obj(filled)
    && out.fields["json_path"] == Str(paths.json)
    && out.fields["markdown_path"] == Str(paths.markdown)
    && ("markdown" in out.fields <==> Truthy(MarkdownOf(filled)))
    && ("markdown" in out.fields ==> out.fields["markdown"] == MarkdownOf(filled))
  }

  /** The part of `finalize_spec` after the fill: write the outputs, read
      any markdown already under `final_output`, and store the result there.
      The shared compliance list is updated in the store even when a later
      step raises. */
  method Complete(s: Store.SpecStore, filled: Dict, paths: Result<Persist.OutputPaths>)
    returns (stored: Store.SpecStore, out: Result<Value>)
    ensures stored.sessionId == s.sessionId
    ensures s.data.Keys <= stored.data.Keys
    ensures out.Ok? ==> "final_output" in stored.data && stored.data["final_output"] == out.value
    ensures out.Ok? ==> paths.Ok? && OutputOf(out.value, filled, paths.value)
    ensures out.Ok? <==> paths.Ok? && FinalOutputReadable(filled)
    ensures out.Ok? ==> out.value == FinalOutput(paths.value, filled, MarkdownOf(filled))
    ensures paths.Err? ==> out == Err(paths.error)
    ensures out.Err? ==> stored == ShareComplianceList(s, filled)
    ensures out.Ok? ==>
      stored == ShareComplianceList(s, filled).(data := ShareComplianceList(s, filled).data["final_output" := out.value])
    ensures forall k :: k in s.data && k != RulesKey && k != "final_output" ==> stored.data[k] == s.data[k]
  {
    stored := ShareComplianceList(s, filled);
    if paths.Err? {
      return stored, Err(paths.error);
    }
    var section := Get(filled, "final_output", Obj(EmptyDict));
    if !section.Obj? {
      return stored, Err(AttributeError("final_output"));
    }
    var result := FinalOutput(paths.value, filled, GetOrNull(section.fields, "markdown"));
    // `set_value("final_output", ...)`: a single segment, see Store.SetTopLevel
    stored := stored.(data := stored.data["final_output" := result]);
    out := Ok(result);
  }

  /** `finalize_spec` for session `sid`: merge `spec` into the session's
      store, fill the snapshot taken at `now1` against the template read at
      `now2`, write the outputs, and store the result under `final_output`.
      The merge is kept whatever fails after it, and no other session is
      touched. */
  method Finalize(reg: Store.Registry, sid: string, spec: Dict, p: TemplateParams, now1: string, now2: string)
    returns (reg': Store.Registry, out: Result<Value>)
    requires Store.RegistryConsistent(reg)
    ensures Store.RegistryConsistent(reg') && sid in reg'
    ensures reg' == Store.GetStore(reg, sid).0[sid := reg'[sid]]
    ensures spec.Keys <= reg'[sid].data.Keys
    ensures out.Ok? ==> "final_output" in reg'[sid].data && reg'[sid].data["final_output"] == out.value
    ensures out.Ok? ==> FinalizedFrom(out, FillDefaults(p, now2, Store.Snapshot(Store.MergeInto(Store.GetStore(reg, sid).1, spec), p, now1)), sid)
    ensures var fill := FillDefaults(p, now2, Store.Snapshot(Store.MergeInto(Store.GetStore(reg, sid).1, spec), p, now1));
      && (fill.Err? ==> out == Err(fill.error))
      && (fill.Ok? ==> (out.Ok? <==> Report.SpecToMarkdown(fill.value).Ok? && FinalOutputReadable(fill.value)))
    ensures KeepsPlainEdits(spec, reg'[sid].data)
  {
    Store.GetStoreStable(reg, sid);
    var merged := Store.MergeInto(Store.GetStore(reg, sid).1, spec);
    var fill := FillDefaults(p, now2, Store.Snapshot(merged, p, now1));
    reg', out := Conclude(Store.GetStore(reg, sid).0, sid, merged, fill);
    PlainEditsKept(Store.GetStore(reg, sid).1, spec, reg'[sid].data);
  }

  /** An edit that is not a dict lands in the merged store as it is, and the
      steps after the fill keep every merged entry but two. */
  lemma PlainEditsKept(s: Store.SpecStore, spec: Dict, stored: Dict)
    requires Store.MergeInto(s, spec).data.Keys <= stored.Keys
    requires forall k :: k in Store.MergeInto(s, spec).data && k != RulesKey && k != "final_output" ==>
      stored[k] == Store.MergeInto(s, spec).data[k]
    ensures KeepsPlainEdits(spec, stored)
  {
  }

  /** Every edit that is not a dict, apart from the rules section and the
      final output, holds in `d` exactly as it was sent. */
  predicate KeepsPlainEdits(spec: Dict, d: Dict) {
    forall k :: k in spec && k != RulesKey && k != "final_output" && !spec[k].Obj? ==> k in d && d[k] == spec[k]
  }

  /** The steps after the fill: keep the merged store whatever happens, and
      on a successful fill write the outputs and record the final output. */
  method Conclude(reg: Store.Registry, sid: string, merged: Store.SpecStore, fill: Result<Dict>)
    returns (reg': Store.Registry, out: Result<Value>)
    requires Store.RegistryConsistent(reg) && merged.sessionId == sid
    ensures Store.RegistryConsistent(reg') && sid in reg'
    ensures reg' == reg[sid := reg'[sid]]
    ensures merged.data.Keys <= reg'[sid].data.Keys
    ensures out.Ok? ==> "final_output" in reg'[sid].data && reg'[sid].data["final_output"] == out.value
    ensures out.Ok? ==> FinalizedFrom(out, fill, sid)
    ensures fill.Err? ==> out == Err(fill.error) && reg' == reg[sid := merged]
    ensures fill.Ok? ==>
      (out.Ok? <==> Report.SpecToMarkdown(fill.value).Ok? && FinalOutputReadable(fill.value))
    ensures fill.Ok? && out.Err? ==> reg'[sid] == ShareComplianceList(merged, fill.value)
    ensures forall k :: k in merged.data && k != RulesKey && k != "final_output" ==> reg'[sid].data[k] == merged.data[k]
  {
    if fill.Err? {
      Store.RegisterKeepsConsistent(reg, merged);
      return reg[sid := merged], Err(fill.error);
    }
    var stored;
    stored, out := Complete(merged, fill.value, Persist.PersistOutputs(fill.value, sid));
    Store.RegisterKeepsConsistent(reg, stored);
    reg' := reg[sid := stored];
  }

  /** `out` is the final output of session `sid` for the successful fill `fill`. */
  predicate FinalizedFrom(out: Result<Value>, fill: Result<Dict>, sid: string) {
    out.Ok? && fill.Ok? && OutputOf(out.value, fill.value, Persist.PathsFor(sid))
  }
}

=== FILE: json.dfy ===
/** The requirements document as a tree of JSON-like values, and the Python
    built-ins the code applies to such values: truthiness, `dict.get`,
    `str()` inside f-strings, and `', '.join`. */
module Json {
  import opened Results
  import Strings

  /** A node of the document: a Python `None`, `bool`, `int`, `str`, `list` or `dict`. */
  datatype Value =
    | Null
    | Bool(b: bool)
    | Int(i: int)
    | Str(s: string)
    | Arr(items: seq<Value>)
    | Obj(fields: map<string, Value>)

  type Dict = map<string, Value>

  const EmptyDict: Dict := map[]

  /** Python truthiness: `None`, `False`, `0` and empty strings, lists and dicts are false. */
  predicate Truthy(v: Value) {
    match v
    case Null => false
    case Bool(b) => b
    case Int(i) => i != 0
    case Str(s) => |s| > 0
    case Arr(items) => |items| > 0
    case Obj(fields) => |fields| > 0
  }

  /** `d.get(key, default)`. */
  function Get(d: Dict, key: string, default: Value): (r: Value)
    ensures key in d ==> r == d[key]
    ensures key !in d ==> r == default
  {
    if key in d then d[key] else default
  }

  /** `d.get(key)`: a missing key reads as `None`. */
  function GetOrNull(d: Dict, key: string): Value {
    Get(d, key, Null)
  }

  /** `str(v)` as an f-string prints it. Lists print their items' `repr`. */
  function ToStr(v: Value): string
    decreases v, 1
  {
    match v
    case Null => "None"
    case Bool(b) => if b then "True" else "False"
    case Int(i) => Strings.IntToString(i)
    case Str(s) => s
    case Arr(items) =>
      "[" + Strings.Join(seq(|items|, k requires 0 <= k < |items| => Repr(items[k])), ", ") + "]"
    case Obj(_) => "{...}"
  }

  /** `repr(v)`: strings are quoted, everything else prints as `str`. */
  function Repr(v: Value): string
    decreases v, 2
  {
    if v.Str? then "'" + v.s + "'" else ToStr(v)
  }

  /** `x or "TBD"` inside an f-string. */
  function OrTbd(v: Value): (r: string)
    ensures !Truthy(v) ==> r == "TBD"
    ensures v.Str? && Truthy(v) ==> r == v.s
  {
    if Truthy(v) then ToStr(v) else "TBD"
  }

  predicate AllStrings(items: seq<Value>) {
    forall k :: 0 <= k < |items| ==> items[k].Str?
  }

  function Texts(items: seq<Value>): (r: seq<string>)
    requires AllStrings(items)
    ensures |r| == |items|
    ensures forall k :: 0 <= k < |items| ==> r[k] == items[k].s
  {
    seq(|items|, k requires 0 <= k < |items| => items[k].s)
  }

  function Chars(s: string): (r: seq<string>)
    ensures |r| == |s|
  {
    seq(|s|, k requires 0 <= k < |s| => [s[k]])
  }

  /** `", ".join(v)`: a list of strings joins its items, a string joins its
      characters, anything else raises `TypeError`. A dict (whose keys Python
      would join in insertion order) is refused here as well: see README. */
  function JoinComma(v: Value, site: string): (r: Result<string>)
    ensures v.Arr? && AllStrings(v.items) <==> r.Ok? && !v.Str?
    ensures v.Arr? && AllStrings(v.items) ==> r.value == Strings.Join(Texts(v.items), ", ")
    ensures v.Str? ==> r.Ok?
    ensures v.Arr? && |v.items| == 0 ==> r == Ok("")
  {
    match v
    case Arr(items) =>
      if AllStrings(items) then Ok(Strings.Join(Texts(items), ", ")) else Err(TypeError(site))
    case Str(s) => Ok(Strings.Join(Chars(s), ", "))
    case _ => Err(TypeError(site))
  }

  /** The value reached from `v` by following `path` through nested dicts, if any. */
  function Lookup(v: Value, path: seq<string>): (r: Option<Value>)
    ensures |path| == 0 ==> r == Some(v)
    decreases |path|
  {
    if |path| == 0 then Some(v)
    else if v.Obj? && path[0] in v.fields then Lookup(v.fields[path[0]], path[1..])
    else None
  }

  /** No proper prefix of `path` holds a non-dict in `d`: each segment before
      the last is either absent or a dict. */
  predicate PathOpen(d: Dict, path: seq<string>)
    decreases |path|
  {
    |path| <= 1 ||
    path[0] !in d ||
    (d[path[0]].Obj? && PathOpen(d[path[0]].fields, path[1..]))
  }
}

=== FILE: merge.dfy ===
/** `merge_dicts`: the right-biased recursive merge the store uses both to
    fold partial updates into its edits and to overlay those edits on the
    template. */
module Merge {
  import opened Results
  import opened Json

  /** The merge of `override` onto `base`. Every key of either side is kept; a
      key only in `base` keeps its value; a key in `override` takes the
      override value verbatim unless both sides hold dicts, in which case the
      two dicts are merged in turn. Lists are never concatenated. */
  function MergeDicts(base: Dict, override: Dict): (r: Dict)
    ensures r.Keys == base.Keys + override.Keys
    ensures forall k :: k in base && k !in override ==> r[k] == base[k]
    ensures forall k :: k in override && !(override[k].Obj? && k in base && base[k].Obj?) ==>
      r[k] == override[k]
    ensures forall k :: k in override && override[k].Obj? && k in base && base[k].Obj? ==>
      r[k].Obj? && r[k].fields.Keys == base[k].fields.Keys + override[k].fields.Keys
    decreases Obj(override)
  {
    map k | k in base.Keys + override.Keys ::
      if k in override then
        if override[k].Obj? && k in base && base[k].Obj? then
          Obj(MergeDicts(base[k].fields, override[k].fields))
        else override[k]
      else base[k]
  }

  /** `x` already holds everything `b` would contribute: every key of `b`, and
      recursively so wherever both hold dicts. */
  predicate Absorbs(x: Dict, b: Dict)
    decreases Obj(b)
  {
    && b.Keys <= x.Keys
    && forall k :: k in b && x[k].Obj? && b[k].Obj? ==> Absorbs(x[k].fields, b[k].fields)
  }

  /** `b1` has at least the shape of `b2`: every key of `b2`, and a dict
      wherever `b2` has one. */
  predicate Covers(b1: Dict, b2: Dict)
    decreases Obj(b2)
  {
    && b2.Keys <= b1.Keys
    && forall k :: k in b2 && b2[k].Obj? ==> b1[k].Obj? && Covers(b1[k].fields, b2[k].fields)
  }

  /** Merging `b` underneath `x` leaves `x` unchanged exactly when `x` absorbs `b`. */
  lemma {:induction false} MergeUnchangedIffAbsorbs(b: Dict, x: Dict)
    ensures MergeDicts(b, x) == x <==> Absorbs(x, b)
    decreases Obj(b)
  {
    if MergeDicts(b, x) == x {
      forall k | k in b && x[k].Obj? && b[k].Obj?
        ensures Absorbs(x[k].fields, b[k].fields)
      {
        assert MergeDicts(b, x)[k] == Obj(MergeDicts(b[k].fields, x[k].fields));
        MergeUnchangedIffAbsorbs(b[k].fields, x[k].fields);
      }
    }
    if Absorbs(x, b) {
      var m := MergeDicts(b, x);
      forall k | k in x
        ensures m[k] == x[k]
      {
        if k in b && x[k].Obj? && b[k].Obj? {
          MergeUnchangedIffAbsorbs(b[k].fields, x[k].fields);
        }
      }
      assert m.Keys == x.Keys;
    }
  }

  lemma {:induction false} AbsorbsReflexive(x: Dict)
    ensures Absorbs(x, x)
    decreases Obj(x)
  {
    forall k | k in x && x[k].Obj?
      ensures Absorbs(x[k].fields, x[k].fields)
    {
      AbsorbsReflexive(x[k].fields);
    }
  }

  lemma {:induction false} CoversReflexive(x: Dict)
    ensures Covers(x, x)
    decreases Obj(x)
  {
    forall k | k in x && x[k].Obj?
      ensures Covers(x[k].fields, x[k].fields)
    {
      CoversReflexive(x[k].fields);
    }
  }

  /** Merging a document with itself changes nothing. */
  lemma MergeIdempotent(x: Dict)
    ensures MergeDicts(x, x) == x
  {
    AbsorbsReflexive(x);
    MergeUnchangedIffAbsorbs(x, x);
  }

  /** The empty dict is a two-sided identity of the merge. */
  lemma MergeIdentity(x: Dict)
    ensures MergeDicts(x, EmptyDict) == x
    ensures MergeDicts(EmptyDict, x) == x
  {
  }

  /** A merge onto a base that covers `b2` already absorbs `b2`. */
  lemma {:induction false} CoveredMergeAbsorbs(b1: Dict, b2: Dict, o: Dict)
    requires Covers(b1, b2)
    ensures Absorbs(MergeDicts(b1, o), b2)
    decreases Obj(b2)
  {
    var x := MergeDicts(b1, o);
    forall k | k in b2 && x[k].Obj? && b2[k].Obj?
      ensures Absorbs(x[k].fields, b2[k].fields)
    {
      if k in o {
        CoveredMergeAbsorbs(b1[k].fields, b2[k].fields, o[k].fields);
      } else {
        CoveredMergeAbsorbs(b1[k].fields, b2[k].fields, EmptyDict);
        MergeIdentity(b1[k].fields);
      }
    }
  }

  /** Re-merging a base of the same shape underneath a merge result changes
      nothing; with `b1 == b2` this is absorption:
      `merge_dicts(B, merge_dicts(B, O)) == merge_dicts(B, O)`. */
  lemma ReMergeAbsorbed(b1: Dict, b2: Dict, o: Dict)
    requires Covers(b1, b2)
    ensures MergeDicts(b2, MergeDicts(b1, o)) == MergeDicts(b1, o)
  {
    CoveredMergeAbsorbs(b1, b2, o);
    MergeUnchangedIffAbsorbs(b2, MergeDicts(b1, o));
  }

  lemma MergeAbsorption(b: Dict, o: Dict)
    ensures MergeDicts(b, MergeDicts(b, o)) == MergeDicts(b, o)
  {
    CoversReflexive(b);
    ReMergeAbsorbed(b, b, o);
  }

  /** A path of the base survives the merge unless the override replaces one
      of its proper prefixes with a non-dict. */
  lemma {:induction false} MergeKeepsPath(b: Dict, o: Dict, path: seq<string>)
    requires Lookup(Obj(b), path).Some?
    requires PathOpen(o, path)
    ensures Lookup(Obj(MergeDicts(b, o)), path).Some?
    decreases |path|
  {
    if |path| > 1 {
      var k := path[0];
      if k in o {
        MergeKeepsPath(b[k].fields, o[k].fields, path[1..]);
      } else {
        MergeIdentity(b[k].fields);
        MergeKeepsPath(b[k].fields, EmptyDict, path[1..]);
      }
    }
  }

  /** ... and the exception is real: an override holding a scalar where the
      base has a section drops every key below that section. */
  lemma ScalarOverrideDropsNestedKeys()
    ensures Lookup(Obj(map["s" := Obj(map["k" := Null])]), ["s", "k"]).Some?
    ensures Lookup(Obj(MergeDicts(map["s" := Obj(map["k" := Null])], map["s" := Str("x")])), ["s", "k"]).None?
  {
    var m := MergeDicts(map["s" := Obj(map["k" := Null])], map["s" := Str("x")]);
    assert m["s"] == Str("x");
  }

  /** Repeating the same merge changes nothing further. */
  lemma {:induction false} MergeRightIdempotent(b: Dict, o: Dict)
    ensures MergeDicts(MergeDicts(b, o), o) == MergeDicts(b, o)
    decreases Obj(o)
  {
    var m := MergeDicts(b, o);
    var mm := MergeDicts(m, o);
    forall k | k in o
      ensures mm[k] == m[k]
    {
      if o[k].Obj? && k in b && b[k].Obj? {
        MergeRightIdempotent(b[k].fields, o[k].fields);
      } else if o[k].Obj? {
        MergeIdempotent(o[k].fields);
      }
    }
    assert mm.Keys == m.Keys;
  }

  /** A non-dict the override holds at the end of a path is what the merge
      holds there: the override wins verbatim. */
  lemma {:induction false} MergeOverridePath(b: Dict, o: Dict, path: seq<string>, v: Value)
    requires |path| >= 1
    requires Lookup(Obj(o), path) == Some(v)
    requires !v.Obj?
    ensures Lookup(Obj(MergeDicts(b, o)), path) == Some(v)
    decreases |path|
  {
    var k := path[0];
    if |path| > 1 && k in b && b[k].Obj? {
      MergeOverridePath(b[k].fields, o[k].fields, path[1..], v);
    }
  }
}

=== FILE: persist.dfy ===
/** `persist_outputs`: where a finished document is written. The files
    themselves are outside the model; what remains is the choice of paths and
    the rendering that can fail before the markdown file is written. */
module Persist {
  import opened Results
  import opened Json
  import Strings
  import Report

  datatype OutputPaths = OutputPaths(json: string, markdown: string)

  const Stem := "outputs/agent_spec"

  /** `f"_{session_id}" if session_id else ""`; a missing id and an empty one
      both give no suffix. */
  function Suffix(sessionId: string): (r: string)
    ensures r == "" <==> sessionId == ""
    ensures r != "" ==> r[0] == '_' && r[1..] == sessionId
  {
    if sessionId == "" then "" else "_" + sessionId
  }

  /** The JSON and markdown paths share the stem and session suffix and differ
      only in their extension. */
  function PathsFor(sessionId: string): (r: OutputPaths)
    ensures Strings.StartsWith(r.json, Stem) && Strings.StartsWith(r.markdown, Stem)
    ensures |r.json| >= 5 && r.json[|r.json| - 5..] == ".json"
    ensures |r.markdown| >= 3 && r.markdown[|r.markdown| - 3..] == ".md"
    ensures r.json[..|r.json| - 5] == r.markdown[..|r.markdown| - 3] == Stem + Suffix(sessionId)
  {
    var base := Stem + Suffix(sessionId);
    var r := OutputPaths(base + ".json", base + ".md");
    assert r.json[..|Stem|] == Stem && r.markdown[..|Stem|] == Stem;
    r
  }

  /** Two different sessions never share output files, as long as neither
      id holds a path separator (`pathlib` reads `"a//b"` and `"a/./b"` as
      `"a/b"`). */
  lemma PathsDistinguishSessions(s1: string, s2: string)
    requires s1 != s2
    requires '/' !in s1 && '/' !in s2
    ensures PathsFor(s1).json != PathsFor(s2).json
    ensures PathsFor(s1).markdown != PathsFor(s2).markdown
  {
    var p1 := PathsFor(s1);
    var p2 := PathsFor(s2);
    assert Suffix(s1) != Suffix(s2);
    assert p1.json[|Stem|..|p1.json| - 5] == Suffix(s1);
    assert p2.json[|Stem|..|p2.json| - 5] == Suffix(s2);
    assert p1.markdown[|Stem|..|p1.markdown| - 3] == Suffix(s1);
    assert p2.markdown[|Stem|..|p2.markdown| - 3] == Suffix(s2);
  }

  /** Writes the document as JSON, then its markdown report; the report is
      the step that can raise. The paths are returned as strings. */
  function PersistOutputs(spec: Dict, sessionId: string): (r: Result<OutputPaths>)
    ensures r.Ok? <==> Report.SpecToMarkdown(spec).Ok?
    ensures r.Ok? ==> r.value == PathsFor(sessionId)
  {
    match Report.SpecToMarkdown(spec)
    case Err(e) => Err(e)
    case Ok(_) => Ok(PathsFor(sessionId))
  }
}

=== FILE: plan.dfy ===
/** `_build_scope_from_use_cases` and the plan `generate_mvp_plan` builds:
    an MVP scope drawn from the two top-ranked use cases. */
module Plan {
  import opened Results
  import opened Json
  import Ranking

  const OutOfScope: seq<string> := ["Tax/legal advice", "Posting without approvals unless confirmed"]
  const FallbackUseCase := "Invoice compliance review (AP)"
  const DefaultAutomationLevel := "Human-in-the-loop"
  const EstimatedIterations := 3

  const FallbackScope := "Workflow: validate invoices against PO + bank statement"
  const FallbackSampleData := "10 sample invoices + bank feeds"
  const FallbackMetric := "Reduce invoice review time by 30%"

  /** The four lists `_build_scope_from_use_cases` returns. */
  datatype Scope = Scope(
    mvpScope: seq<string>,
    requiredSampleData: seq<string>,
    successMetrics: seq<string>,
    outOfScope: seq<string>)

  /** `generate_mvp_plan`'s plan dict. Use case names are whatever the
      partial document holds, so they stay values. */
  datatype MvpPlan = MvpPlan(
    recommendedMvpUseCase: Value,
    secondPriorityUseCase: Value,
    scope: Scope,
    estimatedIterations: int,
    automationLevel: Value)

  function StrList(ss: seq<string>): (r: Value)
    ensures r.Arr? && |r.items| == |ss|
  {
    Arr(seq(|ss|, k requires 0 <= k < |ss| => Str(ss[k])))
  }

  function PlanValue(plan: MvpPlan): Value {
    Obj(map[
      "recommended_mvp_use_case" := plan.recommendedMvpUseCase,
      "second_priority_use_case" := plan.secondPriorityUseCase,
      "mvp_scope" := StrList(plan.scope.mvpScope),
      "out_of_scope" := StrList(plan.scope.outOfScope),
      "required_sample_data" := StrList(plan.scope.requiredSampleData),
      "estimated_iterations" := Int(plan.estimatedIterations),
      "success_metrics" := StrList(plan.scope.successMetrics),
      "automation_level" := plan.automationLevel
    ])
  }

  predicate AllDicts(items: seq<Value>) {
    forall k :: 0 <= k < |items| ==> items[k].Obj?
  }

  /** The names the scope is built from: the truthy `use_case` of each of the
      first two entries, in order; an entry that is not a dict has no `get`. */
  function ScopeNames(ucs: seq<Value>): (r: Result<seq<string>>)
    ensures r.Ok? <==> AllDicts(ucs[..Ranking.Min(2, |ucs|)])
    ensures r.Ok? ==> |r.value| <= Ranking.Min(2, |ucs|)
    ensures r.Ok? && |ucs| >= 1 && Truthy(GetOrNull(ucs[0].fields, "use_case")) ==>
      |r.value| >= 1 && r.value[0] == ToStr(GetOrNull(ucs[0].fields, "use_case"))
    ensures (r.Ok? && |ucs| >= 2 && Truthy(GetOrNull(ucs[0].fields, "use_case"))
      && Truthy(GetOrNull(ucs[1].fields, "use_case"))) ==>
      r.value == [ToStr(GetOrNull(ucs[0].fields, "use_case")), ToStr(GetOrNull(ucs[1].fields, "use_case"))]
    ensures r.Ok? && (forall k :: 0 <= k < Ranking.Min(2, |ucs|) ==> !Truthy(GetOrNull(ucs[k].fields, "use_case")))
      ==> r.value == []
    ensures (r.Ok? && |ucs| >= 2 && !Truthy(GetOrNull(ucs[0].fields, "use_case"))
      && Truthy(GetOrNull(ucs[1].fields, "use_case"))) ==>
      r.value == [ToStr(GetOrNull(ucs[1].fields, "use_case"))]
    ensures (r.Ok? && |ucs| >= 2 && Truthy(GetOrNull(ucs[0].fields, "use_case"))
      && !Truthy(GetOrNull(ucs[1].fields, "use_case"))) ==>
      r.value == [ToStr(GetOrNull(ucs[0].fields, "use_case"))]
    decreases |ucs|
  {
    NameList(ucs[..Ranking.Min(2, |ucs|)])
  }

  function NameList(ucs: seq<Value>): (r: Result<seq<string>>)
    ensures r.Ok? <==> AllDicts(ucs)
    ensures r.Ok? ==> |r.value| <= |ucs|
    ensures r.Ok? && |ucs| >= 1 && Truthy(GetOrNull(ucs[0].fields, "use_case")) ==>
      |r.value| >= 1 && r.value[0] == ToStr(GetOrNull(ucs[0].fields, "use_case"))
    ensures r.Ok? && (forall k :: 0 <= k < |ucs| ==> Truthy(GetOrNull(ucs[k].fields, "use_case"))) ==>
      r.value == seq(|ucs|, k requires 0 <= k < |ucs| => ToStr(GetOrNull(ucs[k].fields, "use_case")))
    ensures r.Ok? && (forall k :: 0 <= k < |ucs| ==> !Truthy(GetOrNull(ucs[k].fields, "use_case")))
      ==> r.value == []
    decreases |ucs|
  {
    if |ucs| == 0 then Ok([])
    else if !ucs[0].Obj? then Err(AttributeError("target_use_cases"))
    else
      var rest :- NameList(ucs[1..]);
      var name := GetOrNull(ucs[0].fields, "use_case");
      Ok(if Truthy(name) then [ToStr(name)] + rest else rest)
  }

  /** `_build_scope_from_use_cases(target_use_cases)`: three parallel lists of
      one or two lines each, one per named use case among the first two, or
      the fixed invoice workflow when none is named; the out-of-scope pair is
      fixed. */
  function BuildScope(ucs: seq<Value>): (r: Result<Scope>)
    ensures r.Ok? <==> ScopeNames(ucs).Ok?
    ensures r.Ok? ==>
      && 1 <= |r.value.mvpScope| <= 2
      && |r.value.requiredSampleData| == |r.value.mvpScope|
      && |r.value.successMetrics| == |r.value.mvpScope|
      && r.value.outOfScope == OutOfScope
    ensures r.Ok? && |ScopeNames(ucs).value| > 0 ==>
      var names := ScopeNames(ucs).value;
      |r.value.mvpScope| == |names| &&
      forall i :: 0 <= i < |names| ==>
        && r.value.mvpScope[i] == "Workflow: " + names[i]
        && r.value.requiredSampleData[i] == "Sample data for " + names[i]
        && r.value.successMetrics[i] == names[i] + ": reduce handling time by 30% and cut errors by 20%"
    ensures r.Ok? && |ScopeNames(ucs).value| == 0 ==>
      r.value == Scope([FallbackScope], [FallbackSampleData], [FallbackMetric], OutOfScope)
  {
    var names :- ScopeNames(ucs);
    if |names| == 0 then
      Ok(Scope([FallbackScope], [FallbackSampleData], [FallbackMetric], OutOfScope))
    else
      Ok(Scope(
        seq(|names|, i requires 0 <= i < |names| => "Workflow: " + names[i]),
        seq(|names|, i requires 0 <= i < |names| => "Sample data for " + names[i]),
        seq(|names|, i requires 0 <= i < |names| => names[i] + ": reduce handling time by 30% and cut errors by 20%"),
        OutOfScope))
  }

  /** `spec_partial.get("target_use_cases") or []`, which must then be sliceable
      into dicts: a string slices into characters (no `get`), anything else
      does not slice. */
  function UseCaseList(spec: Dict): (r: Result<seq<Value>>)
    ensures !Truthy(GetOrNull(spec, "target_use_cases")) ==> r == Ok([])
    ensures GetOrNull(spec, "target_use_cases").Arr? ==> r == Ok(GetOrNull(spec, "target_use_cases").items)
  {
    var v := GetOrNull(spec, "target_use_cases");
    if !Truthy(v) then Ok([])
    else match v
      case Arr(items) => Ok(items)
      case Str(_) => Err(AttributeError("target_use_cases"))
      case _ => Err(TypeError("target_use_cases"))
  }

  /** `(spec_partial.get("automation_preferences") or {}).get("automation_level",
      "Human-in-the-loop")`: the default applies only when the key is absent. */
  function AutomationLevel(spec: Dict): (r: Result<Value>)
    ensures var ap := GetOrNull(spec, "automation_preferences");
      ap.Obj? && "automation_level" in ap.fields ==> r == Ok(ap.fields["automation_level"])
    ensures var ap := GetOrNull(spec, "automation_preferences");
      (!Truthy(ap) || (ap.Obj? && "automation_level" !in ap.fields)) ==> r == Ok(Str(DefaultAutomationLevel))
    ensures var ap := GetOrNull(spec, "automation_preferences");
      Truthy(ap) && !ap.Obj? ==> r.Err?
  {
    var ap := GetOrNull(spec, "automation_preferences");
    var section := if Truthy(ap) then ap else Obj(EmptyDict);
    if !section.Obj? then Err(AttributeError("automation_preferences"))
    else Ok(Get(section.fields, "automation_level", Str(DefaultAutomationLevel)))
  }

  /** Entry `k` of the list is a dict with a `use_case` key. */
  predicate HasUseCase(ucs: seq<Value>, k: int) {
    0 <= k < |ucs| && ucs[k].Obj? && "use_case" in ucs[k].fields
  }

  /** `target_use_cases[k]["use_case"] if len(target_use_cases) > k else fallback`. */
  function UseCaseAt(ucs: seq<Value>, k: nat, fallback: Value): (r: Result<Value>)
    ensures k >= |ucs| ==> r == Ok(fallback)
    ensures k < |ucs| ==> (r.Ok? <==> HasUseCase(ucs, k))
    ensures HasUseCase(ucs, k) ==> r == Ok(ucs[k].fields["use_case"])
  {
    if k >= |ucs| then Ok(fallback)
    else if !ucs[k].Obj? then Err(TypeError("target_use_cases"))
    else if "use_case" in ucs[k].fields then Ok(ucs[k].fields["use_case"])
    else Err(KeyError("use_case"))
  }

  /** The plan `generate_mvp_plan` stores and returns: three iterations, the
      scope of the first two use cases, the first and second use case names
      (or the fixed fallback and `None`), and the automation level as given.
      It fails exactly when one of its inputs is malformed: the automation
      preferences (looked up first), the use case list, a top entry that is
      not a dict, or one without a `use_case` key. */
  function GenerateMvpPlan(spec: Dict): (r: Result<MvpPlan>)
    ensures AutomationLevel(spec).Err? ==> r == Err(AutomationLevel(spec).error)
    ensures r.Ok? <==>
      && AutomationLevel(spec).Ok? && UseCaseList(spec).Ok?
      && ScopeNames(UseCaseList(spec).value).Ok?
      && (|UseCaseList(spec).value| >= 1 ==> HasUseCase(UseCaseList(spec).value, 0))
      && (|UseCaseList(spec).value| >= 2 ==> HasUseCase(UseCaseList(spec).value, 1))
    ensures r.Ok? ==> r.value.estimatedIterations == EstimatedIterations
    ensures r.Ok? ==> UseCaseList(spec).Ok? && AutomationLevel(spec).Ok?
    ensures r.Ok? ==> r.value.automationLevel == AutomationLevel(spec).value
    ensures r.Ok? ==> Ok(r.value.scope) == BuildScope(UseCaseList(spec).value)
    ensures r.Ok? && |UseCaseList(spec).value| == 0 ==>
      r.value.recommendedMvpUseCase == Str(FallbackUseCase) && r.value.secondPriorityUseCase == Null
    ensures r.Ok? && |UseCaseList(spec).value| >= 1 ==>
      HasUseCase(UseCaseList(spec).value, 0) &&
      r.value.recommendedMvpUseCase == UseCaseList(spec).value[0].fields["use_case"]
    ensures r.Ok? && |UseCaseList(spec).value| <= 1 ==> r.value.secondPriorityUseCase == Null
    ensures r.Ok? && |UseCaseList(spec).value| >= 2 ==>
      HasUseCase(UseCaseList(spec).value, 1) &&
      r.value.secondPriorityUseCase == UseCaseList(spec).value[1].fields["use_case"]
    ensures (UseCaseList(spec).Ok? && |UseCaseList(spec).value| >= 1 &&
      !HasUseCase(UseCaseList(spec).value, 0)) ==> r.Err?
  {
    var level :- AutomationLevel(spec);
    var ucs :- UseCaseList(spec);
    var scope :- BuildScope(ucs);
    var recommended :- UseCaseAt(ucs, 0, Str(FallbackUseCase));
    var second :- UseCaseAt(ucs, 1, Null);
    Ok(MvpPlan(recommended, second, scope, EstimatedIterations, level))
  }

  /** An empty use case list and "Advice only": the fixed fallback use case,
      no second priority, three iterations, the level passed through. */
  lemma EmptyPlanInput()
    ensures var spec := map[
        "target_use_cases" := Arr([]),
        "automation_preferences" := Obj(map["automation_level" := Str("Advice only")])];
      var r := GenerateMvpPlan(spec);
      && r.Ok?
      && r.value.recommendedMvpUseCase == Str(FallbackUseCase)
      && r.value.secondPriorityUseCase == Null
      && r.value.estimatedIterations == 3
      && r.value.automationLevel == Str("Advice only")
  {
  }

  /** Malformed automation preferences are reported before a use case list
      that does not slice. */
  lemma AutomationCheckedBeforeUseCases()
    ensures GenerateMvpPlan(map["target_use_cases" := Int(5), "automation_preferences" := Str("x")])
      == Err(AttributeError("automation_preferences"))
  {
  }

  /** The dict form of a ranked use case carries its name under "use_case". */
  lemma UseCaseValueName(u: Ranking.UseCase)
    ensures Ranking.UseCaseValue(u).Obj? && "use_case" in Ranking.UseCaseValue(u).fields
    ensures GetOrNull(Ranking.UseCaseValue(u).fields, "use_case") == Str(u.useCase)
  {
  }

  /** Planning from a stored ranking (as `recommend_agent_types` leaves it)
      recommends the ranking's first use case, names its second as the second
      priority, and scopes the MVP on the first one or two. */
  lemma PlanFollowsRanking(ranking: seq<Ranking.UseCase>, level: Value)
    requires |ranking| >= 1
    requires forall i :: 0 <= i < |ranking| ==> |ranking[i].useCase| > 0
    ensures var spec := map[
        "target_use_cases" := Arr(Ranking.UseCaseValues(ranking)),
        "automation_preferences" := Obj(map["automation_level" := level])];
      var r := GenerateMvpPlan(spec);
      && r.Ok?
      && r.value.recommendedMvpUseCase == Str(ranking[0].useCase)
      && (|ranking| >= 2 ==> r.value.secondPriorityUseCase == Str(ranking[1].useCase))
      && r.value.scope.mvpScope[0] == "Workflow: " + ranking[0].useCase
      && |r.value.scope.mvpScope| == Ranking.Min(2, |ranking|)
  {
    var ucs := Ranking.UseCaseValues(ranking);
    var spec := map[
      "target_use_cases" := Arr(ucs),
      "automation_preferences" := Obj(map["automation_level" := level])];
    assert UseCaseList(spec) == Ok(ucs);
    assert AutomationLevel(spec) == Ok(level);
    RankingScopeNames(ranking);
    UseCaseValueName(ranking[0]);
    if |ranking| >= 2 {
      UseCaseValueName(ranking[1]);
    }
    PlanOfNamedUseCases(spec, ucs);
  }

  /** A plan over use cases whose first two entries are dicts with a
      `use_case` and a truthy name succeeds, and its scope follows the names. */
  lemma PlanOfNamedUseCases(spec: Dict, ucs: seq<Value>)
    requires UseCaseList(spec) == Ok(ucs) && AutomationLevel(spec).Ok?
    requires ScopeNames(ucs).Ok? && |ScopeNames(ucs).value| > 0
    requires |ucs| >= 1 ==> HasUseCase(ucs, 0)
    requires |ucs| >= 2 ==> HasUseCase(ucs, 1)
    ensures GenerateMvpPlan(spec).Ok?
    ensures GenerateMvpPlan(spec).value.scope.mvpScope[0] == "Workflow: " + ScopeNames(ucs).value[0]
    ensures |GenerateMvpPlan(spec).value.scope.mvpScope| == |ScopeNames(ucs).value|
  {
    assert BuildScope(ucs).Ok?;
  }

  /** The scope names of a ranking are its first one or two use cases. */
  lemma RankingScopeNames(ranking: seq<Ranking.UseCase>)
    requires |ranking| >= 1
    requires forall i :: 0 <= i < |ranking| ==> |ranking[i].useCase| > 0
    ensures var names := ScopeNames(Ranking.UseCaseValues(ranking));
      && names.Ok?
      && |names.value| == Ranking.Min(2, |ranking|)
      && names.value[0] == ranking[0].useCase
  {
    var ucs := Ranking.UseCaseValues(ranking);
    var first := ucs[..Ranking.Min(2, |ucs|)];
    forall k | 0 <= k < |first|
      ensures first[k].Obj? && Truthy(GetOrNull(first[k].fields, "use_case"))
      ensures ToStr(GetOrNull(first[k].fields, "use_case")) == ranking[k].useCase
    {
      UseCaseValueName(ranking[k]);
    }
    assert ScopeNames(ucs) == NameList(first);
    assert |NameList(first).value| == |first|;
  }
}

=== FILE: ranking.dfy ===
/** `_derive_use_case_priority`: the rule engine that ranks candidate use
    cases from the free-text pain points and the accounting system. */
module Ranking {
  import opened Results
  import opened Json
  import Strings

  /** One ranked recommendation. */
  datatype UseCase = UseCase(useCase: string, priority: int, reason: string, successMetrics: seq<string>)

  /** The dict the source builds for a recommendation. */
  function UseCaseValue(u: UseCase): Value {
    Obj(map[
      "use_case" := Str(u.useCase),
      "priority" := Int(u.priority),
      "reason" := Str(u.reason),
      "success_metrics" := Arr(seq(|u.successMetrics|, k requires 0 <= k < |u.successMetrics| => Str(u.successMetrics[k])))
    ])
  }

  function UseCaseValues(us: seq<UseCase>): (r: seq<Value>)
    ensures |r| == |us|
  {
    seq(|us|, k requires 0 <= k < |us| => UseCaseValue(us[k]))
  }

  const MaxRecommendations := 5

  const PainMetrics: seq<string> := ["Cycle time reduction", "Error rate reduction", "Throughput increase"]
  const GstMetrics: seq<string> := ["No filing penalties", "Audit-ready workpapers"]

  const BankReconciliation := "Bank reconciliation"
  const InvoiceReview := "Invoice compliance review (AP)"
  const MonthEndClose := "Month-end close checklist"
  const ExpenseCoding := "Expense coding assistance"
  const ArCollections := "AR collections assistant"
  const GstReview := "GST/VAT review"

  /** Accounting systems with GST/VAT support, in lower case. */
  const GstSystems: set<string> := {"xero", "quickbooks", "myob"}

  /** The signal a pain point raises, if any. */
  datatype Signal = Reconciliation | Invoices | MonthEnd

  /** The tests are plain substring tests on the lower-cased text, tried in
      order, so "ap" fires on any word containing it. */
  function Classify(pain: string): (r: Option<Signal>)
    ensures r == Some(Reconciliation) <==> Strings.Contains(Strings.Lower(pain), "recon")
    ensures r == Some(Invoices) <==>
      !Strings.Contains(Strings.Lower(pain), "recon") &&
      (Strings.Contains(Strings.Lower(pain), "invoice") || Strings.Contains(Strings.Lower(pain), "ap"))
    ensures r == Some(MonthEnd) <==>
      !Strings.Contains(Strings.Lower(pain), "recon") &&
      !(Strings.Contains(Strings.Lower(pain), "invoice") || Strings.Contains(Strings.Lower(pain), "ap")) &&
      Strings.Contains(Strings.Lower(pain), "month")
    ensures r.None? <==>
      !Strings.Contains(Strings.Lower(pain), "recon") &&
      !(Strings.Contains(Strings.Lower(pain), "invoice") || Strings.Contains(Strings.Lower(pain), "ap")) &&
      !Strings.Contains(Strings.Lower(pain), "month")
  {
    var low := Strings.Lower(pain);
    if Strings.Contains(low, "recon") then Some(Reconciliation)
    else if Strings.Contains(low, "invoice") || Strings.Contains(low, "ap") then Some(Invoices)
    else if Strings.Contains(low, "month") then Some(MonthEnd)
    else None
  }

  /** The entry a pain point at 0-based position `idx` contributes (none or one). */
  function Entry(pain: string, idx: int): (r: seq<UseCase>)
    ensures |r| <= 1
    ensures |r| == 1 <==> Classify(pain).Some?
    ensures |r| == 1 ==> r[0].priority == idx + 1 && r[0].successMetrics == PainMetrics
    ensures Classify(pain) == Some(Reconciliation) ==>
      r[0].useCase == BankReconciliation && r[0].reason == "User emphasized reconciliation pain"
    ensures Classify(pain) == Some(Invoices) ==>
      r[0].useCase == InvoiceReview && r[0].reason == "Invoices called out as pain"
    ensures Classify(pain) == Some(MonthEnd) ==>
      r[0].useCase == MonthEndClose && r[0].reason == "Month-end pain highlighted"
  {
    match Classify(pain)
    case Some(Reconciliation) => [UseCase(BankReconciliation, idx + 1, "User emphasized reconciliation pain", PainMetrics)]
    case Some(Invoices) => [UseCase(InvoiceReview, idx + 1, "Invoices called out as pain", PainMetrics)]
    case Some(MonthEnd) => [UseCase(MonthEndClose, idx + 1, "Month-end pain highlighted", PainMetrics)]
    case None => []
  }

  /** The entries the pain points contribute, in pain point order. */
  function Matches(pains: seq<string>): (r: seq<UseCase>)
    ensures |r| <= |pains|
    decreases |pains|
  {
    if |pains| == 0 then []
    else Matches(pains[..|pains| - 1]) + Entry(pains[|pains| - 1], |pains| - 1)
  }

  const Fallback: seq<UseCase> := [
    UseCase(ExpenseCoding, 1, "Default recommendation to unblock discovery", PainMetrics),
    UseCase(ArCollections, 2, "Secondary option to validate priorities", PainMetrics)
  ]

  function GstEntry(system: string): UseCase {
    UseCase(GstReview, 1, system + " supports GST/VAT automation", GstMetrics)
  }

  /** `system and system.lower() in {...}` for an already-checked string. */
  predicate KnownSystem(system: string) {
    |system| > 0 && Strings.Lower(system) in GstSystems
  }

  /** Priorities rewritten to positions 1..n; nothing else changes. */
  function Renumber(us: seq<UseCase>): (r: seq<UseCase>)
    ensures |r| == |us|
    ensures forall i :: 0 <= i < |us| ==> r[i] == us[i].(priority := i + 1)
  {
    seq(|us|, i requires 0 <= i < |us| => us[i].(priority := i + 1))
  }

  /** The candidate list before renumbering and truncation. */
  function Candidates(pains: seq<string>, system: string): seq<UseCase> {
    var found := Matches(pains);
    var base := if |found| == 0 then Fallback else found;
    if KnownSystem(system) then [GstEntry(system)] + base else base
  }

  /** The ranking for checked inputs: one to five entries, densely numbered
      from 1 in list order. */
  function Ranked(pains: seq<string>, system: string): (r: seq<UseCase>)
    ensures 1 <= |r| <= MaxRecommendations
    ensures forall i :: 0 <= i < |r| ==> r[i].priority == i + 1
  {
    var c := Candidates(pains, system);
    Renumber(c)[..Min(MaxRecommendations, |c|)]
  }

  /** GST/VAT review leads the ranking exactly when the system is one of the
      three known ones, and names the system in its reason. */
  lemma RankedLeader(pains: seq<string>, system: string)
    ensures Ranked(pains, system)[0].useCase == GstReview <==> KnownSystem(system)
    ensures KnownSystem(system) ==>
      Ranked(pains, system)[0] == UseCase(GstReview, 1, system + " supports GST/VAT automation", GstMetrics)
  {
    MatchesUseCases(pains);
    var c := Candidates(pains, system);
    assert Ranked(pains, system)[0] == c[0].(priority := 1);
  }

  /** When no pain point fires, the ranking is the two fallbacks, after
      GST/VAT review when the system is known. */
  lemma RankedFallback(pains: seq<string>, system: string)
    requires |Matches(pains)| == 0
    ensures Ranked(pains, system) ==
      (if KnownSystem(system) then [GstEntry(system)] else []) +
      [UseCase(ExpenseCoding, if KnownSystem(system) then 2 else 1, "Default recommendation to unblock discovery", PainMetrics),
       UseCase(ArCollections, if KnownSystem(system) then 3 else 2, "Secondary option to validate priorities", PainMetrics)]
  {
  }

  /** Otherwise every entry after the optional GST/VAT review is a pain point
      entry, in pain point order, renumbered, cut to five in all. */
  lemma {:induction false} RankedFollowsPainPoints(pains: seq<string>, system: string)
    requires |Matches(pains)| > 0
    ensures var off := if KnownSystem(system) then 1 else 0;
      var r := Ranked(pains, system);
      |r| == Min(MaxRecommendations, |Matches(pains)| + off) &&
      forall i :: off <= i < |r| ==> r[i] == Matches(pains)[i - off].(priority := i + 1)
  {
    var prefix := if KnownSystem(system) then [GstEntry(system)] else [];
    var c := Candidates(pains, system);
    var found := Matches(pains);
    CandidatesFollowPainPoints(pains, system);
    assert c == prefix + found;
    RenumberedTail(c, prefix, found);
    RankedIsCut(pains, system);
    assert Ranked(pains, system) == Renumber(c)[..Min(MaxRecommendations, |c|)];
  }

  lemma RankedIsCut(pains: seq<string>, system: string)
    ensures Ranked(pains, system) ==
      Renumber(Candidates(pains, system))[..Min(MaxRecommendations, |Candidates(pains, system)|)]
  {
  }

  /** Renumbering and cutting `prefix + found`. */
  lemma RenumberedTail(c: seq<UseCase>, prefix: seq<UseCase>, found: seq<UseCase>)
    requires c == prefix + found
    ensures var r := Renumber(c)[..Min(MaxRecommendations, |c|)];
      |r| == Min(MaxRecommendations, |found| + |prefix|) &&
      forall i :: |prefix| <= i < |r| ==> r[i] == found[i - |prefix|].(priority := i + 1)
  {
  }

  /** Before renumbering: the optional GST/VAT review, then the pain point
      entries unchanged. */
  lemma CandidatesFollowPainPoints(pains: seq<string>, system: string)
    requires |Matches(pains)| > 0
    ensures Candidates(pains, system) ==
      (if KnownSystem(system) then [GstEntry(system)] else []) + Matches(pains)
  {
  }

  function Min(a: int, b: int): int {
    if a < b then a else b
  }

  /** Every pain point entry is one of the three pain point use cases. */
  lemma {:induction false} MatchesUseCases(pains: seq<string>)
    ensures forall i :: 0 <= i < |Matches(pains)| ==>
      Matches(pains)[i].useCase in {BankReconciliation, InvoiceReview, MonthEndClose}
    decreases |pains|
  {
    if |pains| > 0 {
      MatchesUseCases(pains[..|pains| - 1]);
    }
  }

  /** Case does not matter to the classification. */
  lemma ClassifyIgnoresCase(pain: string)
    ensures Classify(Strings.Lower(pain)) == Classify(pain)
  {
    Strings.LowerIdempotent(pain);
  }

  /** The fallback applies exactly when no pain point fires. */
  lemma {:induction false} NoMatchesIffNoSignal(pains: seq<string>)
    ensures |Matches(pains)| == 0 <==> forall i :: 0 <= i < |pains| ==> Classify(pains[i]).None?
    decreases |pains|
  {
    if |pains| > 0 {
      var n := |pains| - 1;
      NoMatchesIffNoSignal(pains[..n]);
      assert forall i :: 0 <= i < n ==> pains[..n][i] == pains[i];
    }
  }

  /** `(spec_partial.get(key) or {})`, which must then be a dict. */
  function PartialSection(spec: Dict, key: string): (r: Result<Dict>)
    ensures r.Err? <==> Truthy(GetOrNull(spec, key)) && !GetOrNull(spec, key).Obj?
    ensures r.Ok? && Truthy(GetOrNull(spec, key)) ==> r.value == GetOrNull(spec, key).fields
  {
    var v := GetOrNull(spec, key);
    if !Truthy(v) then Ok(EmptyDict)
    else if v.Obj? then Ok(v.fields)
    else Err(AttributeError(key))
  }

  /** What `enumerate` iterates: a list yields its items and a string its
      characters. `None`, booleans and numbers are not iterable. A dict is
      iterable in Python (it yields its keys in insertion order), but a `map`
      has no order, so it is refused here as well: see README. */
  function Iterate(v: Value, site: string): (r: Result<seq<Value>>)
    ensures v.Arr? ==> r == Ok(v.items)
    ensures v.Str? ==> r.Ok? && |r.value| == |v.s|
    ensures r.Ok? <==> v.Arr? || v.Str?
  {
    match v
    case Arr(items) => Ok(items)
    case Str(s) => Ok(seq(|s|, k requires 0 <= k < |s| => Str([s[k]])))
    case _ => Err(TypeError(site))
  }

  /** `system` once it is known to be truthy or not: a truthy non-string has
      no `lower` to call. */
  function SystemText(stack: Dict): (r: Result<string>)
    ensures !Truthy(Get(stack, "accounting_system", Str(""))) ==> r == Ok("")
    ensures Get(stack, "accounting_system", Str("")).Str? ==> r == Ok(Get(stack, "accounting_system", Str("")).s)
    ensures r.Err? <==> Truthy(Get(stack, "accounting_system", Str(""))) && !Get(stack, "accounting_system", Str("")).Str?
  {
    var system := Get(stack, "accounting_system", Str(""));
    if !Truthy(system) then Ok("")
    else if system.Str? then Ok(system.s)
    else Err(AttributeError("accounting_system"))
  }

  /** `_derive_use_case_priority(spec_partial)`: the ranking, or the exception
      a malformed partial document raises, in the order the code meets them:
      the problem statement section, the current stack section, iterating
      the pain points, lower-casing each one, then lower-casing the system. */
  function DeriveUseCasePriority(spec: Dict): (r: Result<seq<UseCase>>)
    ensures PartialSection(spec, "problem_statement").Err? ==> r == Err(AttributeError("problem_statement"))
    ensures PartialSection(spec, "problem_statement").Ok? && PartialSection(spec, "current_stack").Err? ==>
      r == Err(AttributeError("current_stack"))
    ensures PartialSection(spec, "problem_statement").Ok? && PartialSection(spec, "current_stack").Ok? ==>
      var pains := Iterate(Get(PartialSection(spec, "problem_statement").value, "top_pain_points", Arr([])), "top_pain_points");
      && (pains.Err? ==> r == Err(TypeError("top_pain_points")))
      && (pains.Ok? && !AllStrings(pains.value) ==> r == Err(AttributeError("top_pain_points")))
      && (pains.Ok? && AllStrings(pains.value) && SystemText(PartialSection(spec, "current_stack").value).Err? ==>
            r == Err(AttributeError("accounting_system")))
      && (pains.Ok? && AllStrings(pains.value) && SystemText(PartialSection(spec, "current_stack").value).Ok? ==>
            r == Ok(Ranked(Texts(pains.value), SystemText(PartialSection(spec, "current_stack").value).value)))
    ensures r.Ok? ==>
      && PartialSection(spec, "problem_statement").Ok? && PartialSection(spec, "current_stack").Ok?
      && var pains := Iterate(Get(PartialSection(spec, "problem_statement").value, "top_pain_points", Arr([])), "top_pain_points");
         var system := SystemText(PartialSection(spec, "current_stack").value);
         && pains.Ok? && AllStrings(pains.value) && system.Ok?
         && r.value == Ranked(Texts(pains.value), system.value)
    ensures r.Ok? ==> 1 <= |r.value| <= MaxRecommendations
    ensures r.Ok? ==> forall i :: 0 <= i < |r.value| ==> r.value[i].priority == i + 1
  {
    match PartialSection(spec, "problem_statement")
    case Err(e) => Err(e)
    case Ok(ps) =>
      match PartialSection(spec, "current_stack")
      case Err(e) => Err(e)
      case Ok(stack) =>
        match Iterate(Get(ps, "top_pain_points", Arr([])), "top_pain_points")
        case Err(e) => Err(e)
        case Ok(pains) =>
          if !AllStrings(pains) then Err(AttributeError("top_pain_points"))
          else
            match SystemText(stack)
            case Err(e) => Err(e)
            case Ok(system) => Ok(Ranked(Texts(pains), system))
  }

  /** The current stack section is looked up before the pain points are
      iterated: a malformed stack is reported even when the pain points are
      not iterable either. */
  lemma StackCheckedBeforePainPoints()
    ensures DeriveUseCasePriority(map[
      "problem_statement" := Obj(map["top_pain_points" := Int(5)]),
      "current_stack" := Str("x")]) == Err(AttributeError("current_stack"))
  {
  }

  /** The ranking computed as the source computes it: a pass over the pain
      points, the fallback, the GST/VAT insertion at the front, the
      renumbering pass and the cut to five. */
  method RankUseCases(pains: seq<string>, system: string) returns (ranking: seq<UseCase>)
    ensures ranking == Ranked(pains, system)
    ensures 1 <= |ranking| <= MaxRecommendations
    ensures forall i :: 0 <= i < |ranking| ==> ranking[i].priority == i + 1
  {
    ranking := MatchPass(pains);
    if |ranking| == 0 {
      ranking := Fallback;
    }
    if |system| > 0 && Strings.Lower(system) in GstSystems {
      ranking := [GstEntry(system)] + ranking;
    }
    assert ranking == Candidates(pains, system);
    ranking := RenumberPass(ranking);
    if |ranking| > MaxRecommendations {
      ranking := ranking[..MaxRecommendations];
    }
  }

  /** The pass over the pain points, appending each one's entry. */
  method MatchPass(pains: seq<string>) returns (found: seq<UseCase>)
    ensures found == Matches(pains)
  {
    found := [];
    var idx := 0;
    while idx < |pains|
      invariant 0 <= idx <= |pains|
      invariant found == Matches(pains[..idx])
    {
      MatchesStep(pains, idx);
      found := found + Entry(pains[idx], idx);
      idx := idx + 1;
    }
    assert pains[..|pains|] == pains;
  }

  lemma MatchesStep(pains: seq<string>, idx: nat)
    requires idx < |pains|
    ensures Matches(pains[..idx + 1]) == Matches(pains[..idx]) + Entry(pains[idx], idx)
  {
    assert pains[..idx + 1][..idx] == pains[..idx];
  }

  /** The in-place pass that sets each entry's priority to its position. */
  method RenumberPass(candidates: seq<UseCase>) returns (ranking: seq<UseCase>)
    ensures ranking == Renumber(candidates)
  {
    ranking := candidates;
    var i := 0;
    while i < |ranking|
      invariant 0 <= i <= |ranking| == |candidates|
      invariant forall j :: 0 <= j < i ==> ranking[j] == candidates[j].(priority := j + 1)
      invariant forall j :: i <= j < |ranking| ==> ranking[j] == candidates[j]
    {
      ranking := ranking[i := ranking[i].(priority := i + 1)];
      i := i + 1;
    }
  }

  /** Two pain points, the first about reconciliation, and no accounting
      system: Bank reconciliation comes first with priority 1. */
  lemma ReconciliationFocus()
    ensures Ranked(["slow reconciliation", "manual errors"], "")[0] ==
      UseCase(BankReconciliation, 1, "User emphasized reconciliation pain", PainMetrics)
  {
    var pains := ["slow reconciliation", "manual errors"];
    assert Strings.Lower(pains[0]) == pains[0];
    assert Strings.OccursAt(pains[0], "recon", 5);
    assert pains[..1] == ["slow reconciliation"];
    assert Matches(pains[..1]) == Entry(pains[0], 0);
    assert |Matches(pains)| > 0;
  }

  /** No pain points and Xero: GST/VAT review, then the two fallbacks. */
  lemma KnownSystemFallback()
    ensures Ranked([], "Xero") == [
      GstEntry("Xero"),
      UseCase(ExpenseCoding, 2, "Default recommendation to unblock discovery", PainMetrics),
      UseCase(ArCollections, 3, "Secondary option to validate priorities", PainMetrics)]
  {
    assert Strings.Lower("Xero") == "xero";
    assert KnownSystem("Xero");
    RankedFallback([], "Xero");
  }

  /** "ap" is a substring test, so a pain point about a gap counts as an
      invoice pain point. */
  lemma ApMatchesGap()
    ensures Classify("gap in reports") == Some(Invoices)
  {
    assert Strings.Lower("gap in reports") == "gap in reports";
    assert Strings.OccursAt("gap in reports", "ap", 1);
    assert !Strings.Contains("gap in reports", "recon") by {
      forall i | 0 <= i <= |"gap in reports"| - 5
        ensures !Strings.OccursAt("gap in reports", "recon", i)
      {
        assert "gap in reports"[i..i + 5][0] != 'r' || "gap in reports"[i..i + 5][1] != 'e'
          || "gap in reports"[i..i + 5][2] != 'c';
      }
    }
  }
}

=== FILE: report.dfy ===
/** `spec_to_markdown`: the deterministic markdown report of a requirements
    document. Lines are built section by section and joined with newlines.
    The renderer is total on template-shaped documents; on others it raises
    where Python would (a section that is not a dict, a list of non-strings
    handed to `join`, a non-string concatenated). */
module Report {
  import opened Results
  import opened Json
  import Strings
  import Template

  const Title := "# Agent Requirements Spec"
  const Guardrails: seq<string> := [
    "- Do not provide tax or legal advice; focus on requirements gathering.",
    "- If autoposting is requested, confirm approvals/audit logging requirements first.",
    "- Offer conservative (HITL) and aggressive (autopost with approvals) options when user is unsure."
  ]

  /** `spec.get(key, {})`, used as a dict afterwards. */
  function Section(spec: Dict, key: string): (r: Result<Dict>)
    ensures key !in spec ==> r == Ok(EmptyDict)
    ensures key in spec ==> (r.Ok? <==> spec[key].Obj?)
    ensures key in spec && spec[key].Obj? ==> r == Ok(spec[key].fields)
  {
    var v := Get(spec, key, Obj(EmptyDict));
    if v.Obj? then Ok(v.fields) else Err(AttributeError(key))
  }

  /** `", ".join(v) or "TBD"`. */
  function JoinOrTbd(v: Value, site: string): (r: Result<string>)
    ensures r.Ok? <==> JoinComma(v, site).Ok?
    ensures r.Ok? && JoinComma(v, site).value != "" ==> r.value == JoinComma(v, site).value
    ensures r.Ok? && JoinComma(v, site).value == "" ==> r.value == "TBD"
    ensures v == Arr([]) ==> r == Ok("TBD")
    ensures r.Ok? ==> |r.value| > 0
  {
    var s :- JoinComma(v, site);
    Ok(if |s| == 0 then "TBD" else s)
  }

  /** `"..." + (v or "TBD")`: a truthy non-string cannot be concatenated. */
  function TextOrTbd(v: Value, site: string): (r: Result<string>)
    ensures !Truthy(v) ==> r == Ok("TBD")
    ensures v.Str? && Truthy(v) ==> r == Ok(v.s)
    ensures Truthy(v) && !v.Str? ==> r.Err?
  {
    if !Truthy(v) then Ok("TBD")
    else if v.Str? then Ok(v.s)
    else Err(TypeError(site))
  }

  /** The line `prefix + str(d[key])` when `d.get(key)` is truthy, else nothing. */
  function OptionalLine(d: Dict, key: string, prefix: string): (r: seq<string>)
    ensures |r| <= 1
    ensures |r| == 1 <==> Truthy(GetOrNull(d, key))
    ensures |r| == 1 ==> r[0] == prefix + ToStr(GetOrNull(d, key))
  {
    var v := GetOrNull(d, key);
    if Truthy(v) then [prefix + ToStr(v)] else []
  }

  /** Some line of `lines` starts with `prefix`. */
  predicate HasLineStarting(lines: seq<string>, prefix: string) {
    exists i :: 0 <= i < |lines| && Strings.StartsWith(lines[i], prefix)
  }

  const ContactsPrefix := "- Contacts: "

  function ContactsLines(cp: Dict): (r: Result<seq<string>>)
    ensures r.Ok? <==> !Truthy(GetOrNull(cp, "primary_contacts")) || JoinComma(GetOrNull(cp, "primary_contacts"), "primary_contacts").Ok?
    ensures r.Ok? ==> |r.value| <= 1
    ensures r.Ok? ==> (|r.value| == 1 <==> Truthy(GetOrNull(cp, "primary_contacts")))
    ensures r.Ok? && |r.value| == 1 ==>
      r.value[0] == ContactsPrefix + JoinComma(GetOrNull(cp, "primary_contacts"), "primary_contacts").value
    ensures r.Ok? && |r.value| == 1 ==> Strings.StartsWith(r.value[0], ContactsPrefix)
  {
    var contacts := GetOrNull(cp, "primary_contacts");
    if Truthy(contacts) then
      var joined :- JoinComma(contacts, "primary_contacts");
      assert (ContactsPrefix + joined)[..|ContactsPrefix|] == ContactsPrefix;
      Ok([ContactsPrefix + joined])
    else Ok([])
  }

  /** The Customer Profile section. Company and industry fall back to TBD,
      country and currency print as they are, and the contacts line appears
      exactly when the contact list is truthy. */
  function CustomerProfileLines(spec: Dict): (r: Result<seq<string>>)
    ensures r.Ok? ==> Section(spec, "customer_profile").Ok?
    ensures r.Ok? ==> |r.value| >= 6 && r.value[0] == "## Customer Profile" && r.value[|r.value| - 1] == ""
    ensures r.Ok? ==>
      (HasLineStarting(r.value, ContactsPrefix) <==>
        Truthy(GetOrNull(Section(spec, "customer_profile").value, "primary_contacts")))
  {
    match Section(spec, "customer_profile")
    case Err(e) => Err(e)
    case Ok(cp) =>
      match ContactsLines(cp)
      case Err(e) => Err(e)
      case Ok(contacts) => Ok(ProfileLines(cp, contacts))
  }

  /** The section around an already rendered (possibly empty) contacts line. */
  function ProfileLines(cp: Dict, contacts: seq<string>): (lines: seq<string>)
    requires |contacts| <= 1
    requires |contacts| == 1 ==> Strings.StartsWith(contacts[0], ContactsPrefix)
    ensures |lines| >= 6 && lines[0] == "## Customer Profile" && lines[|lines| - 1] == ""
    ensures HasLineStarting(lines, ContactsPrefix) <==> |contacts| == 1
  {
    var fixed := [
      "## Customer Profile",
      "- Company: " + OrTbd(GetOrNull(cp, "company_name")),
      "- Industry: " + OrTbd(GetOrNull(cp, "industry")),
      "- Country: " + ToStr(GetOrNull(cp, "country")),
      "- Currency: " + ToStr(GetOrNull(cp, "currency"))
    ];
    var lines := fixed + contacts + [""];
    assert forall i :: 0 <= i < |fixed| ==> !Strings.StartsWith(fixed[i], ContactsPrefix) by {
      forall i | 0 <= i < |fixed| ensures !Strings.StartsWith(fixed[i], ContactsPrefix) {
        NotContactsLine(fixed[i]);
      }
    }
    assert !Strings.StartsWith("", ContactsPrefix);
    assert |contacts| == 1 ==> lines[|fixed|] == contacts[0];
    lines
  }

  /** The only line of the section whose fifth character is 'n' is the contacts line. */
  lemma NotContactsLine(line: string)
    requires |line| > 4 && line[4] != 'n'
    ensures !Strings.StartsWith(line, ContactsPrefix)
  {
    if |ContactsPrefix| <= |line| {
      assert line[..|ContactsPrefix|][4] != ContactsPrefix[4];
    }
  }

  function CurrentStackLines(spec: Dict): (r: Result<seq<string>>)
    ensures r.Ok? ==> |r.value| == 6 && r.value[0] == "## Current Stack" && r.value[5] == ""
  {
    var stack :- Section(spec, "current_stack");
    var sources :- JoinOrTbd(Get(stack, "document_sources", Arr([])), "document_sources");
    Ok([
      "## Current Stack",
      "- Accounting System: " + OrTbd(GetOrNull(stack, "accounting_system")),
      "- Bank Feeds: " + ToStr(GetOrNull(stack, "bank_feeds")),
      "- Document Sources: " + sources,
      "- API Access: " + ToStr(GetOrNull(stack, "api_access_available")),
      ""
    ])
  }

  /** Some volume metric is truthy (`any(volume.values())`). */
  predicate AnyTruthy(volume: Dict) {
    exists k :: k in volume && Truthy(volume[k])
  }

  function MetricLabel(key: string): string {
    Strings.Title(Strings.ReplaceChar(key, '_', ' '))
  }

  /** `f"  - {k.replace('_', ' ').title()}: {v}"`. */
  function MetricLine(key: string, v: Value): string {
    "  - " + MetricLabel(key) + ": " + ToStr(v)
  }

  /** One line per template volume metric the dict holds, in template order. */
  function MetricLines(volume: Dict, keys: seq<string>): (r: seq<string>)
    ensures |r| <= |keys|
    decreases |keys|
  {
    if |keys| == 0 then []
    else
      (if keys[0] in volume then [MetricLine(keys[0], volume[keys[0]])] else [])
      + MetricLines(volume, keys[1..])
  }

  /** `ps.get("volume_metrics") or {}`, which must then be a dict. */
  function VolumeLines(ps: Dict): (r: Result<seq<string>>)
    ensures r.Ok? <==> !Truthy(GetOrNull(ps, "volume_metrics")) || GetOrNull(ps, "volume_metrics").Obj?
    ensures r.Ok? ==> (|r.value| > 0 <==>
      Truthy(GetOrNull(ps, "volume_metrics")) && AnyTruthy(GetOrNull(ps, "volume_metrics").fields))
    ensures r.Ok? && |r.value| > 0 ==> r.value[0] == "- Volume Metrics:"
    ensures r.Ok? && |r.value| > 0 ==>
      r.value[1..] == MetricLines(GetOrNull(ps, "volume_metrics").fields, Template.VolumeMetricKeys)
    ensures !Truthy(GetOrNull(ps, "volume_metrics")) ==> r == Ok([])
  {
    var raw := GetOrNull(ps, "volume_metrics");
    var volume := if Truthy(raw) then raw else Obj(EmptyDict);
    if !volume.Obj? then Err(AttributeError("volume_metrics"))
    else if AnyTruthy(volume.fields) then
      Ok(["- Volume Metrics:"] + MetricLines(volume.fields, Template.VolumeMetricKeys))
    else Ok([])
  }

  /** `ps.get("top_pain_points") or []`. */
  function PainOrEmpty(ps: Dict): Value {
    var raw := GetOrNull(ps, "top_pain_points");
    if Truthy(raw) then raw else Arr([])
  }

  function ProblemStatementLines(spec: Dict): (r: Result<seq<string>>)
    ensures r.Ok? ==> |r.value| >= 4 && r.value[0] == "## Problem Statement" && r.value[|r.value| - 1] == ""
  {
    var ps :- Section(spec, "problem_statement");
    var pain :- JoinOrTbd(PainOrEmpty(ps), "top_pain_points");
    var process :- TextOrTbd(GetOrNull(ps, "current_process_description"), "current_process_description");
    var volume :- VolumeLines(ps);
    Ok(["## Problem Statement", "- Top Pain Points: " + pain, "- Current Process: " + process] + volume + [""])
  }

  /** The lines one recommended use case contributes; the entry must be a dict. */
  function UseCaseItemLines(item: Value): (r: Result<seq<string>>)
    ensures r.Ok? <==> item.Obj? && (Truthy(GetOrNull(item.fields, "success_metrics")) ==>
      JoinComma(GetOrNull(item.fields, "success_metrics"), "success_metrics").Ok?)
    ensures r.Ok? ==> 1 <= |r.value| <= 2 && |r.value[0]| > 0 && r.value[0][|r.value[0]| - 1] == ')'
    ensures r.Ok? ==> (r.value[0] ==
      "- " + ToStr(GetOrNull(item.fields, "use_case")) + " (priority " + ToStr(GetOrNull(item.fields, "priority")) + ")")
    ensures r.Ok? ==> (|r.value| == 2 <==> Truthy(GetOrNull(item.fields, "success_metrics")))
    ensures r.Ok? && |r.value| == 2 ==>
      r.value[1] == "  - Success metrics: " + JoinComma(GetOrNull(item.fields, "success_metrics"), "success_metrics").value
  {
    if !item.Obj? then Err(AttributeError("target_use_cases"))
    else
      var head := "- " + ToStr(GetOrNull(item.fields, "use_case"))
        + " (priority " + ToStr(GetOrNull(item.fields, "priority")) + ")";
      var metrics := GetOrNull(item.fields, "success_metrics");
      if Truthy(metrics) then
        var joined :- JoinComma(metrics, "success_metrics");
        Ok([head, "  - Success metrics: " + joined])
      else Ok([head])
  }

  function UseCaseListLines(items: seq<Value>): (r: Result<seq<string>>)
    ensures r.Ok? ==> |r.value| >= |items|
    ensures r.Ok? && |items| > 0 ==> |r.value[0]| > 0 && r.value[0][|r.value[0]| - 1] == ')'
    decreases |items|
  {
    if |items| == 0 then Ok([])
    else
      var first :- UseCaseItemLines(items[0]);
      var rest :- UseCaseListLines(items[1..]);
      Ok(first + rest)
  }

  /** The Target Use Cases section: one entry per use case, or the single line
      "- TBD" exactly when the list is empty (falsy). */
  function TargetUseCaseLines(spec: Dict): (r: Result<seq<string>>)
    ensures r.Ok? ==> |r.value| >= 3 && r.value[0] == "## Target Use Cases" && r.value[|r.value| - 1] == ""
    ensures r.Ok? ==> (r.value[1] == "- TBD" <==> !Truthy(GetOrNull(spec, "target_use_cases")))
    ensures !Truthy(GetOrNull(spec, "target_use_cases")) ==> r == Ok(["## Target Use Cases", "- TBD", ""])
  {
    var tucs := GetOrNull(spec, "target_use_cases");
    if !Truthy(tucs) then Ok(["## Target Use Cases", "- TBD", ""])
    else
      match tucs
      case Arr(items) =>
        var body :- UseCaseListLines(items);
        assert body[0][|body[0]| - 1] == ')';
        Ok(["## Target Use Cases"] + body + [""])
      // iterating a string or a dict yields strings, which have no `get`
      case Str(_) => Err(AttributeError("target_use_cases"))
      case Obj(_) => Err(AttributeError("target_use_cases"))
      case _ => Err(TypeError("target_use_cases"))
  }

  function AutomationLines(spec: Dict): (r: Result<seq<string>>)
    ensures r.Ok? ==> |r.value| >= 4 && r.value[0] == "## Automation Preferences" && r.value[|r.value| - 1] == ""
  {
    var ap :- Section(spec, "automation_preferences");
    Ok([
      "## Automation Preferences",
      "- Automation Level: " + ToStr(GetOrNull(ap, "automation_level")),
      "- Approval Threshold: " + ToStr(GetOrNull(ap, "approval_threshold"))
    ]
    + OptionalLine(ap, "escalation_path", "- Escalation Path: ")
    + OptionalLine(ap, "failure_policy", "- Failure Policy: ")
    + [""])
  }

  function RulesLines(spec: Dict): (r: Result<seq<string>>)
    ensures r.Ok? ==> |r.value| >= 3 && r.value[0] == "## Rules & Policies" && r.value[|r.value| - 1] == ""
  {
    var rp :- Section(spec, "rules_and_policies");
    var reqs :- JoinOrTbd(Get(rp, "compliance_requirements", Arr([])), "compliance_requirements");
    Ok(["## Rules & Policies", "- Compliance Requirements: " + reqs]
      + OptionalLine(rp, "tax_rules_notes", "- Tax Rules: ")
      + [""])
  }

  function IntegrationLines(spec: Dict): (r: Result<seq<string>>)
    ensures r.Ok? ==> |r.value| >= 4 && r.value[0] == "## Integration Requirements" && r.value[|r.value| - 1] == ""
  {
    var ir :- Section(spec, "integration_requirements");
    var systems :- JoinOrTbd(Get(ir, "systems_to_integrate", Arr([])), "systems_to_integrate");
    Ok(["## Integration Requirements",
        "- Needs Writeback: " + ToStr(GetOrNull(ir, "needs_writeback")),
        "- Systems to Integrate: " + systems]
      + OptionalLine(ir, "deployment_environment", "- Deployment: ")
      + OptionalLine(ir, "data_retention_policy", "- Data Retention: ")
      + [""])
  }

  /** A line `prefix + ", ".join(d[key])` when `d.get(key)` is truthy. */
  function OptionalJoinedLine(d: Dict, key: string, prefix: string): (r: Result<seq<string>>)
    ensures r.Ok? <==> !Truthy(GetOrNull(d, key)) || JoinComma(GetOrNull(d, key), key).Ok?
    ensures r.Ok? ==> |r.value| <= 1
    ensures r.Ok? ==> (|r.value| == 1 <==> Truthy(GetOrNull(d, key)))
    ensures r.Ok? && |r.value| == 1 ==> r.value[0] == prefix + JoinComma(GetOrNull(d, key), key).value
  {
    var v := GetOrNull(d, key);
    if Truthy(v) then
      var joined :- JoinComma(v, key);
      Ok([prefix + joined])
    else Ok([])
  }

  /** The MVP Definition section; unlike the others it carries no blank line
      of its own, the blank before the guardrails follows it. */
  function MvpLines(spec: Dict): (r: Result<seq<string>>)
    ensures r.Ok? ==> |r.value| >= 5 && r.value[0] == "## MVP Definition"
    ensures r.Ok? ==> Strings.StartsWith(r.value[|r.value| - 1], "- Estimated Iterations: ")
  {
    var mvp :- Section(spec, "mvp_definition");
    var scope :- JoinOrTbd(Get(mvp, "mvp_scope", Arr([])), "mvp_scope");
    var outOfScope :- OptionalJoinedLine(mvp, "out_of_scope", "- Out of Scope: ");
    var sample :- JoinOrTbd(Get(mvp, "required_sample_data", Arr([])), "required_sample_data");
    var metrics :- OptionalJoinedLine(mvp, "success_metrics", "- Success Metrics: ");
    var last := "- Estimated Iterations: " + ToStr(GetOrNull(mvp, "estimated_iterations"));
    assert last[..|"- Estimated Iterations: "|] == "- Estimated Iterations: ";
    Ok(["## MVP Definition",
        "- Recommended MVP Use Case: " + ToStr(GetOrNull(mvp, "recommended_mvp_use_case"))]
      + OptionalLine(mvp, "second_priority_use_case", "- Second Priority: ")
      + ["- MVP Scope: " + scope]
      + outOfScope
      + ["- Required Sample Data: " + sample]
      + metrics
      + [last])
  }

  /** Customer Profile, Current Stack and Problem Statement. */
  function FrontSections(spec: Dict): (r: Result<seq<string>>)
    ensures r.Ok? ==> |r.value| >= 16
  {
    Then(Then(CustomerProfileLines(spec), CurrentStackLines(spec)), ProblemStatementLines(spec))
  }

  /** Automation Preferences, Rules & Policies, Integration Requirements and
      MVP Definition. */
  function BackSections(spec: Dict): (r: Result<seq<string>>)
    ensures r.Ok? ==> |r.value| >= 16
  {
    Then(Then(Then(AutomationLines(spec), RulesLines(spec)), IntegrationLines(spec)), MvpLines(spec))
  }

  /** Two rendered parts one after the other; the first that raised decides
      the error, as the sections are rendered in order. */
  function Then(a: Result<seq<string>>, b: Result<seq<string>>): (r: Result<seq<string>>)
    ensures r.Ok? <==> a.Ok? && b.Ok?
    ensures r.Ok? ==> r.value == a.value + b.value
    ensures a.Err? ==> r == Err(a.error)
    ensures a.Ok? && b.Err? ==> r == Err(b.error)
  {
    match a
    case Err(e) => Err(e)
    case Ok(x) =>
      match b
      case Err(e) => Err(e)
      case Ok(y) => Ok(x + y)
  }

  const Footer: seq<string> := ["", "## Guardrails"] + Guardrails

  /** The report layout: title and blank line, the front sections, the
      Target Use Cases section, the back sections, then the guardrails. */
  function Assemble(front: seq<string>, tuc: seq<string>, back: seq<string>): (r: seq<string>)
    ensures |r| == 2 + |front| + |tuc| + |back| + |Footer|
    ensures r[0] == Title && r[1] == ""
    ensures r[2..2 + |front|] == front
    ensures r[2 + |front|..2 + |front| + |tuc|] == tuc
    ensures r[|r| - |Footer|..] == Footer
  {
    var r := [Title, ""] + front + tuc + back + Footer;
    assert r == [Title, ""] + front + (tuc + (back + Footer));
    assert (tuc + (back + Footer))[..|tuc|] == tuc;
    r
  }

  /** The report from its three rendered parts: the first part that failed
      decides the error; otherwise the lines open with the title and close
      with the guardrails. */
  function Layout(front: Result<seq<string>>, tuc: Result<seq<string>>, back: Result<seq<string>>)
    : (r: Result<seq<string>>)
    ensures r.Ok? <==> front.Ok? && tuc.Ok? && back.Ok?
    ensures front.Err? ==> r == Err(front.error)
    ensures r.Ok? ==> |r.value| >= 6 && r.value[0] == Title && r.value[1] == ""
    ensures r.Ok? ==> r.value[|r.value| - |Footer|..] == Footer
    ensures r.Ok? && |tuc.value| >= 2 ==>
      exists i :: (0 <= i < |r.value| - 1 && r.value[i] == tuc.value[0] && r.value[i + 1] == tuc.value[1])
  {
    match front
    case Err(e) => Err(e)
    case Ok(f) =>
      match tuc
      case Err(e) => Err(e)
      case Ok(t) =>
        match back
        case Err(e) => Err(e)
        case Ok(b) =>
          var lines := Assemble(f, t, b);
          if |t| >= 2 then
            AssembleTuc(f, t, b);
            assert lines[2 + |f|] == t[0];
            Ok(lines)
          else Ok(lines)
  }

  /** All report lines, in section order: title, Customer Profile, Current
      Stack, Problem Statement, Target Use Cases, Automation Preferences,
      Rules & Policies, Integration Requirements, MVP Definition, Guardrails. */
  function ReportLines(spec: Dict): Result<seq<string>> {
    Layout(FrontSections(spec), TargetUseCaseLines(spec), BackSections(spec))
  }

  /** With no use cases recorded the report says "- TBD" right under the
      Target Use Cases heading. */
  lemma NoUseCasesRendersTbd(spec: Dict)
    ensures ReportLines(spec).Ok? && !Truthy(GetOrNull(spec, "target_use_cases")) ==>
      exists i :: (0 <= i < |ReportLines(spec).value| - 1 &&
        ReportLines(spec).value[i] == "## Target Use Cases" && ReportLines(spec).value[i + 1] == "- TBD")
  {
    if !Truthy(GetOrNull(spec, "target_use_cases")) {
      assert TargetUseCaseLines(spec) == Ok(["## Target Use Cases", "- TBD", ""]);
    }
  }

  lemma AssembleTuc(front: seq<string>, tuc: seq<string>, back: seq<string>)
    requires |tuc| >= 2
    ensures var r := Assemble(front, tuc, back);
      r[2 + |front|] == tuc[0] && r[3 + |front|] == tuc[1]
  {
    var r := Assemble(front, tuc, back);
    assert r[2 + |front|..2 + |front| + |tuc|] == tuc;
  }

  /** The report holds a contacts line in its Customer Profile section
      exactly when the contact list is truthy. */
  lemma ContactsLineIffContacts(spec: Dict)
    ensures ReportLines(spec).Ok? ==>
      && CustomerProfileLines(spec).Ok?
      && (HasLineStarting(CustomerProfileLines(spec).value, ContactsPrefix) <==>
          Truthy(GetOrNull(Section(spec, "customer_profile").value, "primary_contacts")))
  {
    if ReportLines(spec).Ok? {
      assert FrontSections(spec).Ok?;
    }
  }

  /** The report lines joined with newlines. When no line holds a newline
      the text splits back into exactly those lines, so a report opening with
      the title starts with the title line. */
  function JoinReport(lines: Result<seq<string>>): (r: Result<string>)
    ensures r.Ok? <==> lines.Ok?
    ensures lines.Ok? && |lines.value| >= 2 ==> Strings.StartsWith(r.value, lines.value[0] + "\n")
    ensures lines.Ok? && |lines.value| >= 1 && (forall i :: 0 <= i < |lines.value| ==> '\n' !in lines.value[i]) ==>
      Strings.Split(r.value, '\n') == lines.value
  {
    match lines
    case Err(e) => Err(e)
    case Ok(ls) =>
      JoinFacts(ls, '\n');
      Ok(Strings.Join(ls, "\n"))
  }

  /** `spec_to_markdown(spec)`. */
  function SpecToMarkdown(spec: Dict): Result<string> {
    JoinReport(ReportLines(spec))
  }

  lemma JoinFacts(ls: seq<string>, sep: char)
    ensures |ls| >= 2 ==> Strings.StartsWith(Strings.Join(ls, [sep]), ls[0] + [sep])
    ensures |ls| >= 1 && (forall i :: 0 <= i < |ls| ==> sep !in ls[i]) ==> Strings.Split(Strings.Join(ls, [sep]), sep) == ls
  {
    if |ls| >= 1 && forall i :: 0 <= i < |ls| ==> sep !in ls[i] {
      Strings.SplitJoin(ls, sep);
    }
    if |ls| >= 2 {
      JoinHead(ls, sep);
    }
  }

  /** A join starts with its first piece and the separator. */
  lemma JoinHead(lines: seq<string>, sep: char)
    requires |lines| >= 2
    ensures Strings.StartsWith(Strings.Join(lines, [sep]), lines[0] + [sep])
  {
    var j := Strings.Join(lines, [sep]);
    assert j == lines[0] + [sep] + Strings.Join(lines[1..], [sep]);
    assert j[..|lines[0] + [sep]|] == lines[0] + [sep];
  }

  /** A rendered report starts with its title line. */
  lemma MarkdownOpensWithTitle(spec: Dict)
    ensures SpecToMarkdown(spec).Ok? ==> Strings.StartsWith(SpecToMarkdown(spec).value, Title + "\n")
  {
  }
}

=== FILE: report_text.dfy ===
/** What each section of `spec_to_markdown` says: the text of every field
    line in terms of the document's values, when each section raises, and
    the complete report a fresh template renders to. */
module ReportText {
  import opened Results
  import opened Json
  import Template
  import Strings
  import opened Report

  /** The Customer Profile lines: company and industry fall back to TBD,
      country and currency print whatever is stored (`None` included), and
      the contacts line follows them. */
  lemma ProfileText(spec: Dict)
    ensures CustomerProfileLines(spec).Ok? <==>
      Section(spec, "customer_profile").Ok? && ContactsLines(Section(spec, "customer_profile").value).Ok?
    ensures CustomerProfileLines(spec).Ok? ==>
      var cp := Section(spec, "customer_profile").value;
      var r := CustomerProfileLines(spec).value;
      && r[1] == "- Company: " + OrTbd(GetOrNull(cp, "company_name"))
      && r[2] == "- Industry: " + OrTbd(GetOrNull(cp, "industry"))
      && r[3] == "- Country: " + ToStr(GetOrNull(cp, "country"))
      && r[4] == "- Currency: " + ToStr(GetOrNull(cp, "currency"))
      && r[5..|r| - 1] == ContactsLines(cp).value
  {
  }

  /** The Current Stack lines; the section raises only when it is not a dict
      or its document sources cannot be joined. */
  lemma StackText(spec: Dict)
    ensures CurrentStackLines(spec).Ok? <==>
      Section(spec, "current_stack").Ok? &&
      JoinComma(Get(Section(spec, "current_stack").value, "document_sources", Arr([])), "document_sources").Ok?
    ensures CurrentStackLines(spec).Ok? ==>
      var stack := Section(spec, "current_stack").value;
      var r := CurrentStackLines(spec).value;
      && r[1] == "- Accounting System: " + OrTbd(GetOrNull(stack, "accounting_system"))
      && r[2] == "- Bank Feeds: " + ToStr(GetOrNull(stack, "bank_feeds"))
      && r[3] == "- Document Sources: " + JoinOrTbd(Get(stack, "document_sources", Arr([])), "document_sources").value
      && r[4] == "- API Access: " + ToStr(GetOrNull(stack, "api_access_available"))
  {
  }

  /** The Problem Statement lines: pain points joined or TBD, the process
      description or TBD, then the volume block. */
  lemma ProblemText(spec: Dict)
    ensures ProblemStatementLines(spec).Ok? <==>
      Section(spec, "problem_statement").Ok? &&
      var ps := Section(spec, "problem_statement").value;
      && JoinComma(PainOrEmpty(ps), "top_pain_points").Ok?
      && TextOrTbd(GetOrNull(ps, "current_process_description"), "current_process_description").Ok?
      && VolumeLines(ps).Ok?
    ensures ProblemStatementLines(spec).Ok? ==>
      var ps := Section(spec, "problem_statement").value;
      var r := ProblemStatementLines(spec).value;
      && r[1] == "- Top Pain Points: " + JoinOrTbd(PainOrEmpty(ps), "top_pain_points").value
      && r[2] == "- Current Process: " +
           TextOrTbd(GetOrNull(ps, "current_process_description"), "current_process_description").value
      && r[3..|r| - 1] == VolumeLines(ps).value
  {
  }

  /** The lines of the metrics in `keys` that `volume` holds. */
  function MetricLineSet(volume: Dict, keys: seq<string>): set<string> {
    set k | k in keys && k in volume :: MetricLine(k, volume[k])
  }

  /** The metrics block holds exactly the lines of the template metrics the
      dict holds: no other line, and none of theirs missing. */
  lemma {:induction false} MetricLinesCover(volume: Dict, keys: seq<string>)
    ensures (set l | l in MetricLines(volume, keys)) == MetricLineSet(volume, keys)
    decreases |keys|
  {
    if |keys| > 0 {
      var head := if keys[0] in volume then [MetricLine(keys[0], volume[keys[0]])] else [];
      var tail := MetricLines(volume, keys[1..]);
      MetricLinesCover(volume, keys[1..]);
      assert MetricLines(volume, keys) == head + tail;
      assert (set l | l in head + tail) == (set l | l in head) + (set l | l in tail);
      assert forall k :: k in keys <==> k == keys[0] || k in keys[1..];
      assert MetricLineSet(volume, keys) == (set l | l in head) + MetricLineSet(volume, keys[1..]);
    }
  }

  /** A list of use cases renders exactly when every entry does; each entry
      gives one or two lines, and each entry's heading line is in the list. */
  lemma {:induction false} UseCaseListText(items: seq<Value>)
    ensures UseCaseListLines(items).Ok? <==> forall k :: 0 <= k < |items| ==> UseCaseItemLines(items[k]).Ok?
    ensures UseCaseListLines(items).Ok? ==> |items| <= |UseCaseListLines(items).value| <= 2 * |items|
    ensures UseCaseListLines(items).Ok? ==>
      forall k :: 0 <= k < |items| ==> UseCaseItemLines(items[k]).value[0] in UseCaseListLines(items).value
    decreases |items|
  {
    if |items| > 0 {
      UseCaseListText(items[1..]);
      assert forall k :: 1 <= k < |items| ==> items[1..][k - 1] == items[k];
      if UseCaseListLines(items).Ok? {
        var first := UseCaseItemLines(items[0]).value;
        var rest := UseCaseListLines(items[1..]).value;
        assert UseCaseListLines(items).value == first + rest;
        forall k | 0 <= k < |items|
          ensures UseCaseItemLines(items[k]).value[0] in first + rest
        {
          if k > 0 {
            assert UseCaseItemLines(items[1..][k - 1]).value[0] in rest;
          }
        }
      }
    }
  }

  /** The Target Use Cases section of a truthy use-case entry: a list prints
      its entries between the heading and the blank line and raises when an
      entry does; a string or dict iterates into strings, which have no
      `get`; anything else cannot be iterated. */
  lemma TargetUseCaseText(spec: Dict)
    ensures var tucs := GetOrNull(spec, "target_use_cases");
      tucs.Arr? && Truthy(tucs) ==>
        && (TargetUseCaseLines(spec).Ok? <==> UseCaseListLines(tucs.items).Ok?)
        && (TargetUseCaseLines(spec).Ok? ==>
              TargetUseCaseLines(spec).value == ["## Target Use Cases"] + UseCaseListLines(tucs.items).value + [""])
    ensures var tucs := GetOrNull(spec, "target_use_cases");
      Truthy(tucs) && (tucs.Str? || tucs.Obj?) ==> TargetUseCaseLines(spec) == Err(AttributeError("target_use_cases"))
    ensures var tucs := GetOrNull(spec, "target_use_cases");
      Truthy(tucs) && (tucs.Bool? || tucs.Int?) ==> TargetUseCaseLines(spec) == Err(TypeError("target_use_cases"))
  {
  }

  /** The Automation Preferences lines: level and threshold print as
      stored, then the escalation path and failure policy when set. */
  lemma AutomationText(spec: Dict)
    ensures AutomationLines(spec).Ok? <==> Section(spec, "automation_preferences").Ok?
    ensures AutomationLines(spec).Ok? ==>
      var ap := Section(spec, "automation_preferences").value;
      var r := AutomationLines(spec).value;
      && r[1] == "- Automation Level: " + ToStr(GetOrNull(ap, "automation_level"))
      && r[2] == "- Approval Threshold: " + ToStr(GetOrNull(ap, "approval_threshold"))
      && r[3..|r| - 1] ==
           OptionalLine(ap, "escalation_path", "- Escalation Path: ") + OptionalLine(ap, "failure_policy", "- Failure Policy: ")
  {
  }

  /** The Rules & Policies lines: the compliance list joined or TBD, then the
      tax notes when set. */
  lemma RulesText(spec: Dict)
    ensures RulesLines(spec).Ok? <==>
      Section(spec, "rules_and_policies").Ok? &&
      JoinComma(Get(Section(spec, "rules_and_policies").value, "compliance_requirements", Arr([])), "compliance_requirements").Ok?
    ensures RulesLines(spec).Ok? ==>
      var rp := Section(spec, "rules_and_policies").value;
      var r := RulesLines(spec).value;
      && r[1] == "- Compliance Requirements: " +
           JoinOrTbd(Get(rp, "compliance_requirements", Arr([])), "compliance_requirements").value
      && r[2..|r| - 1] == OptionalLine(rp, "tax_rules_notes", "- Tax Rules: ")
  {
  }

  /** The Integration Requirements lines: writeback as stored, systems joined
      or TBD, then deployment and retention when set. */
  lemma IntegrationText(spec: Dict)
    ensures IntegrationLines(spec).Ok? <==>
      Section(spec, "integration_requirements").Ok? &&
      JoinComma(Get(Section(spec, "integration_requirements").value, "systems_to_integrate", Arr([])), "systems_to_integrate").Ok?
    ensures IntegrationLines(spec).Ok? ==>
      var ir := Section(spec, "integration_requirements").value;
      var r := IntegrationLines(spec).value;
      && r[1] == "- Needs Writeback: " + ToStr(GetOrNull(ir, "needs_writeback"))
      && r[2] == "- Systems to Integrate: " +
           JoinOrTbd(Get(ir, "systems_to_integrate", Arr([])), "systems_to_integrate").value
      && r[3..|r| - 1] ==
           OptionalLine(ir, "deployment_environment", "- Deployment: ") +
           OptionalLine(ir, "data_retention_policy", "- Data Retention: ")
  {
  }

  /** The MVP Definition lines: the recommended use case first and the
      estimated iterations last; scope and sample data joined or TBD; the
      second priority, out-of-scope list and success metrics only when set. */
  lemma MvpText(spec: Dict)
    ensures MvpLines(spec).Ok? <==>
      Section(spec, "mvp_definition").Ok? &&
      var mvp := Section(spec, "mvp_definition").value;
      && JoinComma(Get(mvp, "mvp_scope", Arr([])), "mvp_scope").Ok?
      && OptionalJoinedLine(mvp, "out_of_scope", "- Out of Scope: ").Ok?
      && JoinComma(Get(mvp, "required_sample_data", Arr([])), "required_sample_data").Ok?
      && OptionalJoinedLine(mvp, "success_metrics", "- Success Metrics: ").Ok?
    ensures MvpLines(spec).Ok? ==>
      var mvp := Section(spec, "mvp_definition").value;
      var r := MvpLines(spec).value;
      var second := OptionalLine(mvp, "second_priority_use_case", "- Second Priority: ");
      var outOfScope := OptionalJoinedLine(mvp, "out_of_scope", "- Out of Scope: ").value;
      var metrics := OptionalJoinedLine(mvp, "success_metrics", "- Success Metrics: ").value;
      && r[1] == "- Recommended MVP Use Case: " + ToStr(GetOrNull(mvp, "recommended_mvp_use_case"))
      && r[|r| - 1] == "- Estimated Iterations: " + ToStr(GetOrNull(mvp, "estimated_iterations"))
      && "- MVP Scope: " + JoinOrTbd(Get(mvp, "mvp_scope", Arr([])), "mvp_scope").value in r
      && "- Required Sample Data: " +
           JoinOrTbd(Get(mvp, "required_sample_data", Arr([])), "required_sample_data").value in r
      && (forall l <- second :: l in r)
      && (forall l <- outOfScope :: l in r)
      && (forall l <- metrics :: l in r)
      && |r| == 5 + |second| + |outOfScope| + |metrics|
  {
  }

  /** The sections of a fresh template, as the report prints them: every
      optional answer reads TBD, every unset scalar prints as `None`, and
      the only values shown are the template's own defaults. */
  function FreshProfile(p: Template.TemplateParams): seq<string> {
    ["## Customer Profile", "- Company: TBD", "- Industry: TBD", "- Country: New Zealand",
     "- Currency: " + p.defaultCurrency, ""]
  }

  const FreshStack: seq<string> := [
    "## Current Stack", "- Accounting System: TBD", "- Bank Feeds: None", "- Document Sources: TBD",
    "- API Access: None", ""
  ]

  const FreshProblem: seq<string> := ["## Problem Statement", "- Top Pain Points: TBD", "- Current Process: TBD", ""]

  const FreshTargets: seq<string> := ["## Target Use Cases", "- TBD", ""]

  function FreshAutomation(p: Template.TemplateParams): seq<string> {
    ["## Automation Preferences", "- Automation Level: None",
     "- Approval Threshold: " + ToStr(p.approvalThresholdDefault), ""]
  }

  const FreshRules: seq<string> := ["## Rules & Policies", "- Compliance Requirements: TBD", ""]

  const FreshIntegration: seq<string> := [
    "## Integration Requirements", "- Needs Writeback: None", "- Systems to Integrate: TBD", ""
  ]

  const FreshMvp: seq<string> := [
    "## MVP Definition", "- Recommended MVP Use Case: None", "- MVP Scope: TBD",
    "- Required Sample Data: TBD", "- Estimated Iterations: 3"
  ]

  function FreshFront(p: Template.TemplateParams): seq<string> {
    FreshProfile(p) + FreshStack + FreshProblem
  }

  function FreshBack(p: Template.TemplateParams): seq<string> {
    FreshAutomation(p) + FreshRules + FreshIntegration + FreshMvp
  }

  /** The whole report of a fresh template. */
  function FreshReport(p: Template.TemplateParams): seq<string> {
    [Title, ""] + FreshFront(p) + FreshTargets + FreshBack(p) + Footer
  }

  /** A fresh template renders to exactly `FreshReport`, and its markdown is
      those lines joined with newlines. */
  lemma TemplateRenders(p: Template.TemplateParams, now: string)
    ensures ReportLines(Template.SpecTemplate(p, now)) == Ok(FreshReport(p))
    ensures SpecToMarkdown(Template.SpecTemplate(p, now)) == Ok(Strings.Join(FreshReport(p), "\n"))
  {
    var t := Template.SpecTemplate(p, now);
    Template.TemplateSections(p, now);
    Template.TemplateParameters(p, now);
    DefaultSectionsRender(t, p);
  }

  /** Any document whose sections hold the template's defaults renders to
      the fresh report. */
  lemma DefaultSectionsRender(spec: Dict, p: Template.TemplateParams)
    requires GetOrNull(spec, "customer_profile") == Obj(Template.CustomerProfile(p))
    requires GetOrNull(spec, "current_stack") == Obj(Template.CurrentStack)
    requires GetOrNull(spec, "problem_statement") == Obj(Template.ProblemStatement)
    requires GetOrNull(spec, "automation_preferences") == Obj(Template.AutomationPreferences(p))
    requires GetOrNull(spec, "rules_and_policies") == Obj(Template.RulesAndPolicies)
    requires GetOrNull(spec, "integration_requirements") == Obj(Template.IntegrationRequirements)
    requires GetOrNull(spec, "mvp_definition") == Obj(Template.MvpDefinition)
    requires GetOrNull(spec, "target_use_cases") == Arr([])
    ensures ReportLines(spec) == Ok(FreshReport(p))
  {
    DefaultFrontRenders(spec, p);
    DefaultBackRenders(spec, p);
    assert TargetUseCaseLines(spec) == Ok(FreshTargets);
    LayoutOfRendered(FreshFront(p), FreshTargets, FreshBack(p));
  }

  lemma LayoutOfRendered(front: seq<string>, tuc: seq<string>, back: seq<string>)
    ensures Layout(Ok(front), Ok(tuc), Ok(back)) == Ok([Title, ""] + front + tuc + back + Footer)
  {
  }

  lemma DefaultFrontRenders(spec: Dict, p: Template.TemplateParams)
    requires GetOrNull(spec, "customer_profile") == Obj(Template.CustomerProfile(p))
    requires GetOrNull(spec, "current_stack") == Obj(Template.CurrentStack)
    requires GetOrNull(spec, "problem_statement") == Obj(Template.ProblemStatement)
    ensures FrontSections(spec) == Ok(FreshFront(p))
  {
    DefaultProfileRenders(spec, p);
    DefaultStackRenders(spec);
    DefaultProblemRenders(spec);
  }

  lemma DefaultProfileRenders(spec: Dict, p: Template.TemplateParams)
    requires GetOrNull(spec, "customer_profile") == Obj(Template.CustomerProfile(p))
    ensures CustomerProfileLines(spec) == Ok(FreshProfile(p))
  {
    var cp := Template.CustomerProfile(p);
    assert Section(spec, "customer_profile") == Ok(cp);
    assert ContactsLines(cp) == Ok([]);
    assert CustomerProfileLines(spec) == Ok(ProfileLines(cp, []));
    FreshProfileLines(p);
  }

  lemma FreshProfileLines(p: Template.TemplateParams)
    ensures ProfileLines(Template.CustomerProfile(p), []) == FreshProfile(p)
  {
    var cp := Template.CustomerProfile(p);
    assert GetOrNull(cp, "company_name") == Null && GetOrNull(cp, "industry") == Null;
    assert GetOrNull(cp, "country") == Str("New Zealand") && GetOrNull(cp, "currency") == Str(p.defaultCurrency);
    assert "- Company: " + "TBD" == "- Company: TBD";
    assert "- Industry: " + "TBD" == "- Industry: TBD";
    assert "- Country: " + "New Zealand" == "- Country: New Zealand";
  }

  lemma DefaultStackRenders(spec: Dict)
    requires GetOrNull(spec, "current_stack") == Obj(Template.CurrentStack)
    ensures CurrentStackLines(spec) == Ok(FreshStack)
  {
    StackText(spec);
    assert Section(spec, "current_stack") == Ok(Template.CurrentStack);
    assert JoinOrTbd(Arr([]), "document_sources") == Ok("TBD");
    assert CurrentStackLines(spec).Ok?;
    var r := CurrentStackLines(spec).value;
    assert r[1] == "- Accounting System: TBD";
    assert r[2] == "- Bank Feeds: None";
    assert r[3] == "- Document Sources: TBD";
    assert r[4] == "- API Access: None";
    assert r == FreshStack;
  }

  lemma DefaultProblemRenders(spec: Dict)
    requires GetOrNull(spec, "problem_statement") == Obj(Template.ProblemStatement)
    ensures ProblemStatementLines(spec) == Ok(FreshProblem)
  {
    var ps := Template.ProblemStatement;
    assert Section(spec, "problem_statement") == Ok(ps);
    assert !AnyTruthy(Template.VolumeMetrics);
    assert VolumeLines(ps) == Ok([]);
    assert PainOrEmpty(ps) == Arr([]);
    assert JoinOrTbd(Arr([]), "top_pain_points") == Ok("TBD");
    ProblemText(spec);
    var r := ProblemStatementLines(spec).value;
    assert r[3..|r| - 1] == [];
    assert |r| == 4;
    assert r[1] == "- Top Pain Points: TBD";
    assert r[2] == "- Current Process: TBD";
    assert r == FreshProblem;
  }

  lemma DefaultBackRenders(spec: Dict, p: Template.TemplateParams)
    requires GetOrNull(spec, "automation_preferences") == Obj(Template.AutomationPreferences(p))
    requires GetOrNull(spec, "rules_and_policies") == Obj(Template.RulesAndPolicies)
    requires GetOrNull(spec, "integration_requirements") == Obj(Template.IntegrationRequirements)
    requires GetOrNull(spec, "mvp_definition") == Obj(Template.MvpDefinition)
    ensures BackSections(spec) == Ok(FreshBack(p))
  {
    DefaultPolicyRenders(spec, p);
    DefaultDeliveryRenders(spec);
  }

  lemma DefaultPolicyRenders(spec: Dict, p: Template.TemplateParams)
    requires GetOrNull(spec, "automation_preferences") == Obj(Template.AutomationPreferences(p))
    requires GetOrNull(spec, "rules_and_policies") == Obj(Template.RulesAndPolicies)
    ensures AutomationLines(spec) == Ok(FreshAutomation(p))
    ensures RulesLines(spec) == Ok(FreshRules)
  {
    AutomationText(spec);
    RulesText(spec);
    var ap := Template.AutomationPreferences(p);
    assert Section(spec, "automation_preferences") == Ok(ap);
    assert Section(spec, "rules_and_policies") == Ok(Template.RulesAndPolicies);
    assert OptionalLine(ap, "escalation_path", "- Escalation Path: ") == [];
    assert OptionalLine(ap, "failure_policy", "- Failure Policy: ") == [];
    assert OptionalLine(Template.RulesAndPolicies, "tax_rules_notes", "- Tax Rules: ") == [];
    assert JoinOrTbd(Arr([]), "compliance_requirements") == Ok("TBD");
    var a := AutomationLines(spec).value;
    assert a[3..|a| - 1] == [];
    assert |a| == 4;
    assert a[1] == "- Automation Level: None";
    assert a == FreshAutomation(p);
    var r := RulesLines(spec).value;
    assert r[2..|r| - 1] == [];
    assert |r| == 3;
    assert r[1] == "- Compliance Requirements: TBD";
    assert r == FreshRules;
  }

  lemma DefaultDeliveryRenders(spec: Dict)
    requires GetOrNull(spec, "integration_requirements") == Obj(Template.IntegrationRequirements)
    requires GetOrNull(spec, "mvp_definition") == Obj(Template.MvpDefinition)
    ensures IntegrationLines(spec) == Ok(FreshIntegration)
    ensures MvpLines(spec) == Ok(FreshMvp)
  {
    DefaultIntegrationRenders(spec);
    DefaultMvpRenders(spec);
  }

  lemma DefaultIntegrationRenders(spec: Dict)
    requires GetOrNull(spec, "integration_requirements") == Obj(Template.IntegrationRequirements)
    ensures IntegrationLines(spec) == Ok(FreshIntegration)
  {
    var ir := Template.IntegrationRequirements;
    assert Section(spec, "integration_requirements") == Ok(ir);
    IntegrationText(spec);
    assert OptionalLine(ir, "deployment_environment", "- Deployment: ") == [];
    assert OptionalLine(ir, "data_retention_policy", "- Data Retention: ") == [];
    assert JoinOrTbd(Arr([]), "systems_to_integrate") == Ok("TBD");
    var r := IntegrationLines(spec).value;
    assert r[3..|r| - 1] == [];
    assert |r| == 4;
    assert r[1] == "- Needs Writeback: None";
    assert r[2] == "- Systems to Integrate: TBD";
    assert r == FreshIntegration;
  }

  lemma DefaultMvpRenders(spec: Dict)
    requires GetOrNull(spec, "mvp_definition") == Obj(Template.MvpDefinition)
    ensures MvpLines(spec) == Ok(FreshMvp)
  {
    var mvp := Template.MvpDefinition;
    assert Section(spec, "mvp_definition") == Ok(mvp);
    assert OptionalLine(mvp, "second_priority_use_case", "- Second Priority: ") == [];
    assert OptionalJoinedLine(mvp, "out_of_scope", "- Out of Scope: ") == Ok([]);
    assert OptionalJoinedLine(mvp, "success_metrics", "- Success Metrics: ") == Ok([]);
    assert JoinOrTbd(Arr([]), "mvp_scope") == Ok("TBD");
    assert JoinOrTbd(Arr([]), "required_sample_data") == Ok("TBD");
    assert GetOrNull(mvp, "recommended_mvp_use_case") == Null;
    assert GetOrNull(mvp, "estimated_iterations") == Int(3);
    assert Get(mvp, "mvp_scope", Arr([])) == Arr([]);
    assert Get(mvp, "required_sample_data", Arr([])) == Arr([]);
    assert ToStr(Int(3)) == "3";
    assert "- Recommended MVP Use Case: " + "None" == "- Recommended MVP Use Case: None";
    assert "- MVP Scope: " + "TBD" == "- MVP Scope: TBD";
    assert "- Required Sample Data: " + "TBD" == "- Required Sample Data: TBD";
    assert "- Estimated Iterations: " + "3" == "- Estimated Iterations: 3";
    var none: seq<string> := [];
    var lines := ["## MVP Definition", "- Recommended MVP Use Case: None"] + none
      + ["- MVP Scope: TBD"] + none + ["- Required Sample Data: TBD"] + none + ["- Estimated Iterations: 3"];
    assert MvpLines(spec) == Ok(lines);
    assert lines == FreshMvp;
  }
}

=== FILE: results.dfy ===
/** Failure-compatible result type standing in for the Python exceptions the
    requirements-document code can raise on a document of the wrong shape. */
module Results {

  /** The exception classes the modelled code can raise, with the place that raised it. */
  datatype PyError =
    | TypeError(site: string)       // a non-iterable joined or iterated, a non-str concatenated
    | AttributeError(site: string)  // `.get`, `.lower`, `.setdefault` or `.append` on the wrong type
    | KeyError(key: string)         // `d[key]` on a dict without that key

  datatype Option<+T> = None | Some(value: T)

  datatype Result<+T> = Ok(value: T) | Err(error: PyError) {

    predicate IsFailure() {
      Err?
    }

    function PropagateFailure<U>(): Result<U>
      requires Err?
    {
      Err(error)
    }

    function Extract(): T
      requires Ok?
    {
      value
    }
  }
}

=== FILE: store.dfy ===
/** `SpecStore` and the per-session registry behind `get_store`. A store holds
    the edits accumulated for one session; its snapshot overlays those edits
    on a fresh template. The registry is a map from session id to store,
    passed in and returned instead of living in a module-level dict. */
module Store {
  import opened Results
  import opened Json
  import opened Merge
  import DottedPath
  import Strings
  import opened Template

  datatype SpecStore = SpecStore(sessionId: string, data: Dict)

  type Registry = map<string, SpecStore>

  /** `SpecStore.set_value`: the dotted assignment, or the error it raises with
      the store as it was. */
  function SetValue(s: SpecStore, dottedKey: string, value: Value): (r: Result<SpecStore>)
    ensures r.Ok? <==> PathOpen(s.data, Strings.Split(dottedKey, '.'))
    ensures r.Ok? ==> r.value.sessionId == s.sessionId
    ensures r.Ok? ==> Lookup(Obj(r.value.data), Strings.Split(dottedKey, '.')) == Some(value)
  {
    var data :- DottedPath.SetValue(s.data, dottedKey, value);
    Ok(s.(data := data))
  }

  /** A key without dots is a plain top-level assignment, which cannot fail. */
  lemma SetTopLevel(s: SpecStore, key: string, value: Value)
    requires '.' !in key
    ensures SetValue(s, key, value) == Ok(s.(data := s.data[key := value]))
  {
    Strings.SplitNoSeparator(key, '.');
  }

  /** `SpecStore.merge`: the edits become `merge_dicts(data, incoming)`; the
      session id is untouched. */
  function MergeInto(s: SpecStore, incoming: Dict): (r: SpecStore)
    ensures r.sessionId == s.sessionId
    ensures r.data.Keys == s.data.Keys + incoming.Keys
    ensures forall k :: k in incoming && !incoming[k].Obj? ==> r.data[k] == incoming[k]
  {
    s.(data := MergeDicts(s.data, incoming))
  }

  /** `SpecStore.snapshot`: the template read at `now`, overlaid with the
      edits. All eleven sections are always present, and an edit that is not
      a dict shows through unchanged. */
  function Snapshot(s: SpecStore, p: TemplateParams, now: string): (r: Dict)
    ensures r.Keys == TopLevelKeys + s.data.Keys
    ensures forall k :: k in s.data && !s.data[k].Obj? ==> r[k] == s.data[k]
  {
    MergeDicts(SpecTemplate(p, now), s.data)
  }

  /** `get_store`: the registered store for `sid`, or a new empty one that is
      registered first. */
  function GetStore(reg: Registry, sid: string): (res: (Registry, SpecStore))
    ensures sid in reg ==> res == (reg, reg[sid])
    ensures sid !in reg ==> res.1 == SpecStore(sid, EmptyDict) && res.0 == reg[sid := res.1]
    ensures sid in res.0 && res.0[sid] == res.1
    ensures forall other :: other in reg ==> other in res.0 && res.0[other] == reg[other]
  {
    if sid in reg then (reg, reg[sid])
    else
      var created := SpecStore(sid, EmptyDict);
      (reg[sid := created], created)
  }

  /** Every registered store is filed under its own session id. */
  predicate RegistryConsistent(reg: Registry) {
    forall sid :: sid in reg ==> reg[sid].sessionId == sid
  }

  /** `get_store` keeps the registry consistent, hands back a store for the
      id it was asked for, and a second call with the same id returns the
      same store and changes nothing. */
  lemma GetStoreStable(reg: Registry, sid: string)
    requires RegistryConsistent(reg)
    ensures RegistryConsistent(GetStore(reg, sid).0)
    ensures GetStore(reg, sid).1.sessionId == sid
    ensures GetStore(GetStore(reg, sid).0, sid) == GetStore(reg, sid)
  {
  }

  /** Filing a store under its own id keeps the registry consistent. */
  lemma RegisterKeepsConsistent(reg: Registry, s: SpecStore)
    requires RegistryConsistent(reg)
    ensures RegistryConsistent(reg[s.sessionId := s])
  {
  }

  /** One call a session can make on its store. */
  datatype Edit = SetEdit(key: string, value: Value) | MergeEdit(incoming: Dict)

  /** Applies a session's edits in order; a `set_value` that raises leaves the
      store as it was. */
  function ApplyEdits(s: SpecStore, edits: seq<Edit>): (r: SpecStore)
    ensures r.sessionId == s.sessionId
    decreases |edits|
  {
    if |edits| == 0 then s
    else
      var next := match edits[0]
        case SetEdit(key, value) =>
          (match SetValue(s, key, value) case Ok(s') => s' case Err(_) => s)
        case MergeEdit(incoming) => MergeInto(s, incoming);
      ApplyEdits(next, edits[1..])
  }

  /** Whatever the session did, its snapshot has every template section. */
  lemma SnapshotHasAllSections(s: SpecStore, edits: seq<Edit>, p: TemplateParams, now: string)
    ensures TopLevelKeys <= Snapshot(ApplyEdits(s, edits), p, now).Keys
  {
  }

  /** Deeper template keys survive as long as no edit replaced one of their
      enclosing sections with a non-dict. */
  lemma SnapshotKeepsTemplatePath(s: SpecStore, p: TemplateParams, now: string, path: seq<string>)
    requires Lookup(Obj(SpecTemplate(p, now)), path).Some?
    requires PathOpen(s.data, path)
    ensures Lookup(Obj(Snapshot(s, p, now)), path).Some?
  {
    MergeKeepsPath(SpecTemplate(p, now), s.data, path);
  }

  /** A non-dict stored through a dotted key reads back from the snapshot. */
  lemma SetValueThenSnapshot(s: SpecStore, dottedKey: string, value: Value, p: TemplateParams, now: string)
    requires SetValue(s, dottedKey, value).Ok?
    requires !value.Obj?
    ensures Lookup(Obj(Snapshot(SetValue(s, dottedKey, value).value, p, now)), Strings.Split(dottedKey, '.'))
      == Some(value)
  {
    var s' := SetValue(s, dottedKey, value).value;
    MergeOverridePath(SpecTemplate(p, now), s'.data, Strings.Split(dottedKey, '.'), value);
  }

  /** Merging the same partial document twice is the same as merging it once. */
  lemma MergeIntoTwice(s: SpecStore, incoming: Dict)
    ensures MergeInto(MergeInto(s, incoming), incoming) == MergeInto(s, incoming)
  {
    MergeRightIdempotent(s.data, incoming);
  }
}

=== FILE: strings.dfy ===
/** The handful of Python `str` operations the requirements code relies on:
    `in` (substring test), `lower`, `split`, `join`, `replace`, `title`, and
    `str()` of an integer. Case mapping covers ASCII letters only. */
module Strings {

  /** Python's `t in s` for two strings: `t` occurs as a contiguous block of `s`. */
  predicate Contains(s: string, t: string) {
    exists i | 0 <= i <= |s| - |t| :: OccursAt(s, t, i)
  }

  predicate OccursAt(s: string, t: string, i: int) {
    0 <= i <= |s| - |t| && s[i..i + |t|] == t
  }

  predicate StartsWith(s: string, prefix: string) {
    |prefix| <= |s| && s[..|prefix|] == prefix
  }

  predicate IsUpper(c: char) { 'A' <= c <= 'Z' }

  predicate IsLower(c: char) { 'a' <= c <= 'z' }

  function LowerChar(c: char): char {
    if IsUpper(c) then (c as int - 'A' as int + 'a' as int) as char else c
  }

  function UpperChar(c: char): char {
    if IsLower(c) then (c as int - 'a' as int + 'A' as int) as char else c
  }

  /** `s.lower()`: every upper-case letter is mapped to its lower-case form, nothing else moves. */
  function Lower(s: string): (r: string)
    ensures |r| == |s|
    ensures forall i :: 0 <= i < |s| ==> !IsUpper(r[i])
    ensures forall i :: 0 <= i < |s| && !IsUpper(s[i]) ==> r[i] == s[i]
  {
    seq(|s|, i requires 0 <= i < |s| => LowerChar(s[i]))
  }

  /** Lower-casing twice is lower-casing once. */
  lemma LowerIdempotent(s: string)
    ensures Lower(Lower(s)) == Lower(s)
  {
  }

  /** `s.replace(a, b)` for single characters. */
  function ReplaceChar(s: string, a: char, b: char): (r: string)
    ensures |r| == |s|
    ensures a != b ==> a !in r
    ensures forall i :: 0 <= i < |s| && s[i] != a ==> r[i] == s[i]
  {
    seq(|s|, i requires 0 <= i < |s| => if s[i] == a then b else s[i])
  }

  /** `s.title()`: a letter is upper-cased when the character before it is not a
      letter and lower-cased otherwise; `prevCased` says whether a letter precedes `s`. */
  function TitleFrom(s: string, prevCased: bool): (r: string)
    ensures |r| == |s|
    decreases |s|
  {
    if |s| == 0 then ""
    else
      var c := s[0];
      var cased := IsUpper(c) || IsLower(c);
      [if !cased then c else if prevCased then LowerChar(c) else UpperChar(c)]
        + TitleFrom(s[1..], cased)
  }

  function Title(s: string): string {
    TitleFrom(s, false)
  }

  /** `sep.join(parts)`. */
  function Join(parts: seq<string>, sep: string): (r: string)
    ensures |parts| == 1 ==> r == parts[0]
    ensures |parts| == 0 ==> r == ""
    decreases |parts|
  {
    if |parts| == 0 then ""
    else if |parts| == 1 then parts[0]
    else parts[0] + sep + Join(parts[1..], sep)
  }

  /** `s.split(sep)` for a one-character separator: never empty, keeps empty pieces. */
  function Split(s: string, sep: char): (parts: seq<string>)
    ensures |parts| >= 1
    ensures forall i :: 0 <= i < |parts| ==> sep !in parts[i]
    decreases |s|
  {
    if |s| == 0 then [""]
    else
      var rest := Split(s[1..], sep);
      if s[0] == sep then [""] + rest
      else [[s[0]] + rest[0]] + rest[1..]
  }

  /** Joining the pieces of a split with the same separator gives back the string. */
  lemma {:induction false} JoinSplit(s: string, sep: char)
    ensures Join(Split(s, sep), [sep]) == s
    decreases |s|
  {
    if |s| > 0 {
      var rest := Split(s[1..], sep);
      JoinSplit(s[1..], sep);
      assert s == [s[0]] + s[1..];
      if s[0] != sep {
        if |rest| > 1 {
          assert Join(rest, [sep]) == rest[0] + [sep] + Join(rest[1..], [sep]);
        }
      }
    }
  }

  /** Splitting a piece followed by the separator peels that piece off. */
  lemma {:induction false} SplitCons(p: string, sep: char, tail: string)
    requires sep !in p
    ensures Split(p + [sep] + tail, sep) == [p] + Split(tail, sep)
    decreases |p|
  {
    if |p| == 0 {
      assert p + [sep] + tail == [sep] + tail;
      assert ([sep] + tail)[1..] == tail;
    } else {
      SplitCons(p[1..], sep, tail);
      assert (p + [sep] + tail)[1..] == p[1..] + [sep] + tail;
      assert [p[0]] + p[1..] == p;
    }
  }

  /** A string without the separator splits into itself alone. */
  lemma {:induction false} SplitNoSeparator(p: string, sep: char)
    requires sep !in p
    ensures Split(p, sep) == [p]
    decreases |p|
  {
    if |p| > 0 {
      SplitNoSeparator(p[1..], sep);
      assert [p[0]] + p[1..] == p;
    }
  }

  /** Splitting a join recovers the pieces when none of them holds the separator. */
  lemma {:induction false} SplitJoin(parts: seq<string>, sep: char)
    requires |parts| >= 1
    requires forall i :: 0 <= i < |parts| ==> sep !in parts[i]
    ensures Split(Join(parts, [sep]), sep) == parts
    decreases |parts|
  {
    if |parts| == 1 {
      SplitNoSeparator(parts[0], sep);
    } else {
      assert Join(parts, [sep]) == parts[0] + [sep] + Join(parts[1..], [sep]);
      SplitJoin(parts[1..], sep);
      SplitCons(parts[0], sep, Join(parts[1..], [sep]));
      assert [parts[0]] + parts[1..] == parts;
    }
  }

  function DigitChar(d: int): char
    requires 0 <= d < 10
  {
    ('0' as int + d) as char
  }

  function NatToString(n: nat): (r: string)
    ensures |r| >= 1
    ensures '0' <= r[0] <= '9'
    decreases n
  {
    if n < 10 then [DigitChar(n)] else NatToString(n / 10) + [DigitChar(n % 10)]
  }

  /** `str(n)` of a Python int: decimal digits with a leading minus when negative. */
  function IntToString(n: int): (r: string)
    ensures |r| >= 1
    ensures n < 0 <==> r[0] == '-'
  {
    if n < 0 then "-" + NatToString(-n) else NatToString(n)
  }
}

=== FILE: template.dfy ===
/** `get_spec_template`: the canonical default shape of the requirements
    document. Process configuration and the wall clock are parameters. */
module Template {
  import opened Json
  import opened Merge

  const SpecVersion := "1.0"

  /** The configuration values the template reads. The approval threshold is
      a float in the configuration and is taken here as an opaque value. */
  datatype TemplateParams = TemplateParams(
    defaultCurrency: string,
    approvalThresholdDefault: Value,
    projectName: string,
    runtime: string)

  /** The eleven top-level sections. */
  const TopLevelKeys: set<string> := {
    "spec_schema_version", "customer_profile", "current_stack", "problem_statement",
    "target_use_cases", "automation_preferences", "rules_and_policies",
    "integration_requirements", "mvp_definition", "final_output", "metadata"
  }

  /** The volume metrics in the order the template declares them. */
  const VolumeMetricKeys: seq<string> := [
    "invoices_per_month", "bank_transactions_per_month", "customers_in_ar", "suppliers_in_ap"
  ]

  function CustomerProfile(p: TemplateParams): Dict {
    map[
      "company_name" := Null,
      "industry" := Null,
      "country" := Str("New Zealand"),
      "currency" := Str(p.defaultCurrency),
      "primary_contacts" := Arr([])
    ]
  }

  const CurrentStack: Dict := map[
    "accounting_system" := Null,
    "bank_feeds" := Null,
    "document_sources" := Arr([]),
    "api_access_available" := Null
  ]

  const VolumeMetrics: Dict := map[
    "invoices_per_month" := Null,
    "bank_transactions_per_month" := Null,
    "customers_in_ar" := Null,
    "suppliers_in_ap" := Null
  ]

  const ProblemStatement: Dict := map[
    "top_pain_points" := Arr([]),
    "current_process_description" := Null,
    "volume_metrics" := Obj(VolumeMetrics)
  ]

  function AutomationPreferences(p: TemplateParams): Dict {
    map[
      "automation_level" := Null,
      "approval_threshold" := p.approvalThresholdDefault,
      "escalation_path" := Null,
      "failure_policy" := Null
    ]
  }

  const RulesAndPolicies: Dict := map[
    "accounting_policy_available" := Null,
    "chart_of_accounts_available" := Null,
    "tax_rules_notes" := Null,
    "compliance_requirements" := Arr([])
  ]

  const IntegrationRequirements: Dict := map[
    "needs_writeback" := Null,
    "systems_to_integrate" := Arr([]),
    "data_retention_policy" := Null,
    "deployment_environment" := Null
  ]

  const MvpDefinition: Dict := map[
    "recommended_mvp_use_case" := Null,
    "mvp_scope" := Arr([]),
    "out_of_scope" := Arr([]),
    "required_sample_data" := Arr([]),
    "estimated_iterations" := Int(3),
    "second_priority_use_case" := Null,
    "success_metrics" := Arr([])
  ]

  /** `now` is the clock reading as `datetime.isoformat()` prints it. */
  function Metadata(p: TemplateParams, now: string): Dict {
    map[
      "generated_at" := Str(now + "Z"),
      "project" := Str(p.projectName),
      "runtime" := Str(p.runtime)
    ]
  }

  /** A fresh template: the eleven sections, with the configured currency and
      threshold and the clock reading in the metadata. */
  function SpecTemplate(p: TemplateParams, now: string): (t: Dict)
    ensures t.Keys == TopLevelKeys
  {
    map[
      "spec_schema_version" := Str(SpecVersion),
      "customer_profile" := Obj(CustomerProfile(p)),
      "current_stack" := Obj(CurrentStack),
      "problem_statement" := Obj(ProblemStatement),
      "target_use_cases" := Arr([]),
      "automation_preferences" := Obj(AutomationPreferences(p)),
      "rules_and_policies" := Obj(RulesAndPolicies),
      "integration_requirements" := Obj(IntegrationRequirements),
      "mvp_definition" := Obj(MvpDefinition),
      "final_output" := Obj(EmptyDict),
      "metadata" := Obj(Metadata(p, now))
    ]
  }

  /** The sections the default-injection rule and the renderer look into. */
  lemma TemplateSections(p: TemplateParams, now: string)
    ensures SpecTemplate(p, now)["spec_schema_version"] == Str(SpecVersion)
    ensures SpecTemplate(p, now)["target_use_cases"] == Arr([])
    ensures SpecTemplate(p, now)["automation_preferences"] == Obj(AutomationPreferences(p))
    ensures SpecTemplate(p, now)["rules_and_policies"] == Obj(RulesAndPolicies)
    ensures SpecTemplate(p, now)["final_output"] == Obj(EmptyDict)
  {
  }

  /** The clock reading and the configured currency land where the template says. */
  lemma TemplateParameters(p: TemplateParams, now: string)
    ensures SpecTemplate(p, now)["metadata"] == Obj(Metadata(p, now))
    ensures SpecTemplate(p, now)["customer_profile"] == Obj(CustomerProfile(p))
  {
  }

  /** Two templates read at different times have the same shape, so either
      one merged underneath a merge onto the other adds nothing. */
  lemma TemplateShapeIgnoresClock(p: TemplateParams, now1: string, now2: string)
    ensures Covers(SpecTemplate(p, now1), SpecTemplate(p, now2))
  {
    var t1 := SpecTemplate(p, now1);
    var t2 := SpecTemplate(p, now2);
    forall k | k in t2 && t2[k].Obj?
      ensures t1[k].Obj? && Covers(t1[k].fields, t2[k].fields)
    {
      if k == "metadata" {
        assert Covers(Metadata(p, now1), Metadata(p, now2));
      } else {
        assert t1[k] == t2[k];
        CoversReflexive(t2[k].fields);
      }
    }
  }
}

=== FILE: tools.dfy ===
/** The conversational tools over the session registry: `save_answer`,
    `recommend_agent_types` and `generate_mvp_plan` (`finalize_spec` is
    `Finalize.Finalize`). Each first looks the session's store up, which
    registers it even when the tool then raises. */
module Tools {
  import opened Results
  import opened Json
  import Strings
  import Store
  import Ranking
  import Plan

  /** `save_answer`: stores `value` under the dotted `key` and echoes both
      back; when `set_value` raises, the store is as it was. */
  function SaveAnswer(reg: Store.Registry, sid: string, key: string, value: Value)
    : (res: (Store.Registry, Result<Value>))
    requires Store.RegistryConsistent(reg)
    ensures Store.RegistryConsistent(res.0) && sid in res.0
    ensures res.0 == Store.GetStore(reg, sid).0[sid := res.0[sid]]
    ensures res.1.Ok? <==> PathOpen(Store.GetStore(reg, sid).1.data, Strings.Split(key, '.'))
    ensures res.1.Ok? ==> Lookup(Obj(res.0[sid].data), Strings.Split(key, '.')) == Some(value)
    ensures res.1.Ok? ==> res.1.value == Obj(map["status" := Str("saved"), "key" := Str(key), "value" := value])
    ensures res.1.Ok? ==> forall k :: k in Store.GetStore(reg, sid).1.data && k != Strings.Split(key, '.')[0] ==>
      k in res.0[sid].data && res.0[sid].data[k] == Store.GetStore(reg, sid).1.data[k]
    ensures res.1.Err? ==> res.0 == Store.GetStore(reg, sid).0
  {
    Store.GetStoreStable(reg, sid);
    var reg1 := Store.GetStore(reg, sid).0;
    var store := Store.GetStore(reg, sid).1;
    match Store.SetValue(store, key, value)
    case Err(e) => (reg1, Err(e))
    case Ok(stored) =>
      Store.RegisterKeepsConsistent(reg1, stored);
      (reg1[sid := stored], Ok(Obj(map["status" := Str("saved"), "key" := Str(key), "value" := value])))
  }

  /** The tail shared by `recommend_agent_types` and `generate_mvp_plan`:
      look the session up (registering it), then store a computed value under
      a top-level key and answer with `answer`; a computation that raised
      leaves the registered store as it was. */
  method Record(reg: Store.Registry, sid: string, key: string, computed: Result<Value>, answer: Value)
    returns (reg': Store.Registry, out: Result<Value>)
    requires Store.RegistryConsistent(reg)
    ensures Store.RegistryConsistent(reg') && sid in reg'
    ensures reg' == Store.GetStore(reg, sid).0[sid := reg'[sid]]
    ensures out.Ok? <==> computed.Ok?
    ensures out.Ok? ==> out.value == answer
    ensures computed.Ok? ==> reg'[sid].data == Store.GetStore(reg, sid).1.data[key := computed.value]
    ensures computed.Err? ==> reg' == Store.GetStore(reg, sid).0 && out == Err(computed.error)
  {
    Store.GetStoreStable(reg, sid);
    var reg1 := Store.GetStore(reg, sid).0;
    var store := Store.GetStore(reg, sid).1;
    if computed.Err? {
      return reg1, Err(computed.error);
    }
    // `set_value(key, ...)` on a key without dots, see Store.SetTopLevel
    var s' := store.(data := store.data[key := computed.value]);
    Store.RegisterKeepsConsistent(reg1, s');
    reg' := reg1[sid := s'];
    out := Ok(answer);
  }

  /** `recommend_agent_types`: ranks use cases from the partial document,
      stores the ranking as the session's target use cases and returns it
      under "recommended". */
  method RecommendAgentTypes(reg: Store.Registry, sid: string, specPartial: Dict)
    returns (reg': Store.Registry, out: Result<Value>)
    requires Store.RegistryConsistent(reg)
    ensures Store.RegistryConsistent(reg') && sid in reg'
    ensures reg' == Store.GetStore(reg, sid).0[sid := reg'[sid]]
    ensures out.Ok? <==> Ranking.DeriveUseCasePriority(specPartial).Ok?
    ensures out.Ok? ==>
      var stored := Arr(Ranking.UseCaseValues(Ranking.DeriveUseCasePriority(specPartial).value));
      && reg'[sid].data == Store.GetStore(reg, sid).1.data["target_use_cases" := stored]
      && out.value == Obj(map["recommended" := stored])
    ensures out.Err? ==> reg' == Store.GetStore(reg, sid).0
    ensures out.Err? ==> out == Err(Ranking.DeriveUseCasePriority(specPartial).error)
  {
    var ranking := Ranking.DeriveUseCasePriority(specPartial);
    var stored := if ranking.Ok? then Ok(Arr(Ranking.UseCaseValues(ranking.value))) else Err(ranking.error);
    var answer := if stored.Ok? then Obj(map["recommended" := stored.value]) else Null;
    reg', out := Record(reg, sid, "target_use_cases", stored, answer);
  }

  /** `generate_mvp_plan`: builds the plan from the partial document, stores
      it as the session's MVP definition and returns it. */
  method GenerateMvpPlan(reg: Store.Registry, sid: string, specPartial: Dict)
    returns (reg': Store.Registry, out: Result<Value>)
    requires Store.RegistryConsistent(reg)
    ensures Store.RegistryConsistent(reg') && sid in reg'
    ensures reg' == Store.GetStore(reg, sid).0[sid := reg'[sid]]
    ensures out.Ok? <==> Plan.GenerateMvpPlan(specPartial).Ok?
    ensures out.Ok? ==> out.value == Plan.PlanValue(Plan.GenerateMvpPlan(specPartial).value)
    ensures out.Ok? ==> reg'[sid].data == Store.GetStore(reg, sid).1.data["mvp_definition" := out.value]
    ensures out.Err? ==> reg' == Store.GetStore(reg, sid).0
    ensures out.Err? ==> out == Err(Plan.GenerateMvpPlan(specPartial).error)
  {
    var plan := Plan.GenerateMvpPlan(specPartial);
    var stored := if plan.Ok? then Ok(Plan.PlanValue(plan.value)) else Err(plan.error);
    var answer := if stored.Ok? then stored.value else Null;
    reg', out := Record(reg, sid, "mvp_definition", stored, answer);
  }
}
